=== FILE: README.md ===
# VK education-projects bot: a Dafny model of its core

The bot has three parts, and this project models each one:

- A long-poll loop (`Connection`). It gets a Long Poll session (server, key, cursor `ts`), polls for update batches, hands each update to the dispatcher, and recovers from every error by getting a new session, after a sleep for every error except a `failed` response with code 1.
- A message dispatcher (`VkBot.processUpdate` and its text helpers). It routes a message to one of four handlers: greeting, catalog search, yes/no answer, help. If the message holds a listed bad word, it appends a warning.
- A paginated scraper (`SiteAnalyzer`). It walks the catalog listing page by page. It collects `ProjectInfo` items whose URLs it has not seen before, retries a page that yields nothing new, and stops at the page limit, at the last page, after the retries run out on a page, or on the first error it cannot handle.

Each part is written as pure functions. The outside world is passed in as parameters:

- The long-poll transport is a sequence of already-decoded responses.
- The browser is an oracle. For each (page counter, attempt) it gives the cards it sees, and for each page counter it gives the pagination controls.
- The user-name lookup is an oracle from peer id to an optional name.
- Sleeps appear as labelled `Backoff` effects.
- Sending a message appears as an `Outbound` record.

The scraper's process-wide fields `parsedUrls` and `currentPageNumber` are an explicit `Statics` value.

Files:

- `wrappers.dfy`: `Option`.
- `catalog.dfy`: `ProjectInfo` and URL uniqueness.
- `text.dfy`: the `java.lang.String` operations the bot relies on: lower-casing, `startsWith`, `contains`, `trim`, and `replaceAll("\\s+", " ")`.
- `dispatcher.dfy`: `VkBot`.
- `long_poll.dfy`: `Connection`.
- `scraper.dfy`: `SiteAnalyzer`.

In three places the code behaves differently from what a reader might expect, and the model follows the code:

- Every `failed` response ends the inner poll loop, so the loop gets a new session. This includes code 1, for which the VK Bots Long Poll API only asks the client to continue with a fresh `ts`. Codes other than 1 also sleep 5 s first, because they raise an `IOException`.
- The start keyword sends two messages: the greeting, then the help text.
- The bad-word check runs after routing. For the start, yes/no and help handlers, which send on the dispatching thread, it appends a warning after what the handler sent; it does not replace it.

## Model

| member | source | states |
|---|---|---|
| Catalog.GetTitle | src/main/java/vk/chatbot/ProjectInfo.java:15-17 | the getter returns the title given at construction; rebuilding the record from it and the other two fields gives back the same record |
| Catalog.GetDescription | src/main/java/vk/chatbot/ProjectInfo.java:19-21 | the getter returns the description given at construction, and nothing else about the record is lost |
| Catalog.GetUrl | src/main/java/vk/chatbot/ProjectInfo.java:23-25 | the getter returns the URL given at construction, and nothing else about the record is lost |
| Catalog.AppendFresh | src/main/java/vk/chatbot/SiteAnalyzer.java:99-101 | appending a project adds exactly its URL to the list's URL set; if the URL was not in the set, the list stays free of duplicate URLs |
| Text.ContainsIffOccurs | src/main/java/vk/chatbot/VkBot.java:102-103 | the left-to-right `contains` scan succeeds exactly when the substring occurs at some position |
| Text.Trim | src/main/java/vk/chatbot/VkBot.java:67 | `trim()` removes only characters up to U+0020, only from the two ends, and leaves no such character at either end |
| Text.TrimIdentity | src/main/java/vk/chatbot/VkBot.java:67 | a text that already starts and ends with a character above U+0020 is left unchanged |
| Text.CollapseSpaces | src/main/java/vk/chatbot/VkBot.java:253 | after the collapse, every whitespace character is a plain space, no two whitespace characters are adjacent, and the result starts with whitespace only if the input did |
| Text.CollapseMatchesReference | src/main/java/vk/chatbot/VkBot.java:253 | the collapse equals a character-by-character reference: a non-whitespace character is kept as it is, the first character of each maximal run of `\s` characters becomes one plain space, and the rest of the run is dropped. So a control character outside `\s` is kept, and no run of whitespace vanishes |
| Text.CollapseIdentity | src/main/java/vk/chatbot/VkBot.java:253 | a text that only has single plain spaces is a fixed point of the collapse |
| Text.CollapseKeepsVisible | src/main/java/vk/chatbot/VkBot.java:253 | the collapse keeps every character above U+0020, in order |
| Text.LowerIdempotent | src/main/java/vk/chatbot/VkBot.java:72 | lower-casing a lower-cased text changes nothing |
| Text.TrimKeepsVisible | src/main/java/vk/chatbot/VkBot.java:67 | trimming keeps every character above U+0020, in order |
| Dispatcher.FirstRule | src/main/java/vk/chatbot/VkBot.java:70-78 | the handler chosen is the one of the first rule in the cascade that applies; if no rule applies, it is the help handler |
| Dispatcher.RoutePriority | src/main/java/vk/chatbot/VkBot.java:70-78 | start is chosen exactly when the text equals the start keyword ignoring case. Search is chosen exactly when it is not start and the lower-cased text begins with the search keyword. Yes/no is chosen exactly when neither applies and the text is a yes/no question. Help is chosen exactly when none of the three applies |
| Dispatcher.RoutingIgnoresCase | src/main/java/vk/chatbot/VkBot.java:70-78 | the start, search and yes/no tests, the chosen handler and the bad-word test give the same answer for a text and for its lower-cased form, because each of them compares only the lower-cased text |
| Dispatcher.FirstMatch | src/main/java/vk/chatbot/VkBot.java:101-106 | the index found is that of a matching item with no matching item before it; nothing is found exactly when no item matches |
| Dispatcher.GenerateAnswer | src/main/java/vk/chatbot/VkBot.java:99-108 | the reply describes the first catalog item, in list order, whose lower-cased title or description contains the lower-cased query; if no item matches, it is the fixed fallback |
| Dispatcher.SearchReplies | src/main/java/vk/chatbot/VkBot.java:110-120 | the query is the trimmed text after the first five characters. An empty query gets only the prompt. Any other query gets exactly one reply, the answer for that query. A text shorter than five characters sends nothing |
| Dispatcher.BadWordsIffOccurs | src/main/java/vk/chatbot/VkBot.java:289-296 | the bad-word test holds exactly when one of the listed words occurs somewhere in the lower-cased text |
| Dispatcher.CapMessage | src/main/java/vk/chatbot/VkBot.java:175-179 | a sent text is at most 4096 characters long. A text within the limit is sent unchanged. A longer one is sent as its first 4093 characters followed by "..." |
| Dispatcher.CapIdempotent | src/main/java/vk/chatbot/VkBot.java:175-179 | capping a capped text changes nothing |
| Dispatcher.FormatSearchResults | src/main/java/vk/chatbot/VkBot.java:256-261 | the result is the header naming the query, followed by a prefix of the results of length `min(3996, length)` |
| Dispatcher.ShortErrorMessage | src/main/java/vk/chatbot/VkBot.java:263-266 | the result is a prefix of the message: the whole message when it is no longer than 200 characters, and otherwise exactly its first 200 characters; a missing message gives no result |
| Dispatcher.CleanText | src/main/java/vk/chatbot/VkBot.java:252-254 | the cleaned text neither starts nor ends with a character up to U+0020, has no two adjacent whitespace characters, and every whitespace character in it is a plain space |
| Dispatcher.CleanTextMatchesReference | src/main/java/vk/chatbot/VkBot.java:252-254 | cleaning is the trim of the reference collapse: each maximal run of `\s` characters becomes one plain space, every other character is kept, and then the ends are trimmed |
| Dispatcher.CleanTextKeepsVisible | src/main/java/vk/chatbot/VkBot.java:252-254 | cleaning keeps every character above U+0020, in order |
| Dispatcher.CleanTextIdempotent | src/main/java/vk/chatbot/VkBot.java:252-254 | cleaning a cleaned text changes nothing |
| Dispatcher.RoutedReplies | src/main/java/vk/chatbot/VkBot.java:70-78 | every routed handler sends one or two texts. The start keyword sends the greeting with the sender's name, then the help text. A search command sends the prompt when its query is empty and otherwise the answer for its query. A yes/no question, considered only when neither of those applies, sends the affirmative reply. Anything else sends the help text |
| Dispatcher.ProcessUpdate | src/main/java/vk/chatbot/VkBot.java:61-87 | an update that is not a readable `message_new` sends nothing, because the handler swallows every exception. A message sends one to three messages, all to its own peer, none longer than 4096 characters |
| Dispatcher.WarningOnlyAppends | src/main/java/vk/chatbot/VkBot.java:70-83 | the routed replies are sent first and unchanged. They are followed by exactly one warning when the trimmed text holds a listed word, and by nothing otherwise. For a search command this is the order of the synchronous search; the bot itself may send the warning first |
| Dispatcher.StartSendsGreetingThenHelp | src/main/java/vk/chatbot/VkBot.java:166-173 | the start keyword, in any case, sends exactly the personal greeting and then the help text, and no warning |
| Dispatcher.EmptyQuerySendsPrompt | src/main/java/vk/chatbot/VkBot.java:112-116 | a search command with an empty query sends the prompt first, and what it sends does not depend on the catalog |
| Dispatcher.SearchSendsAnswer | src/main/java/vk/chatbot/VkBot.java:72-73 | a search command with a non-empty query first sends the catalog answer for the trimmed query, capped to 4096 characters, to the sender's peer; the name lookup plays no part |
| Dispatcher.YesNoSendsAffirmative | src/main/java/vk/chatbot/VkBot.java:74-75 | a yes/no question that the start and search tests do not take is answered first with the affirmative reply, whatever it asks and whatever the catalog or the name lookup holds |
| Dispatcher.UnknownTextSendsHelp | src/main/java/vk/chatbot/VkBot.java:76-77 | a text that no handler takes is answered first with the help text |
| LongPoll.NextRequest | src/main/java/vk/chatbot/Connection.java:31-40 | the loop acquires a session exactly when it has none. Otherwise it polls with the current server, key and cursor and a 25 s wait |
| LongPoll.ObjectPrefix | src/main/java/vk/chatbot/Connection.java:65-67 | the length of the leading run of JSON objects in a batch: every element before it is an object, and the element at it, if any, is not |
| LongPoll.Step | src/main/java/vk/chatbot/Connection.java:29-81 | a successful session acquisition starts polling with the server, key and `ts` it returned, with no other effect. The loop keeps polling only after a successful poll, and then with the same server and key and the new `ts`. Every `failed` response makes it get a new session: code 1 at once, other codes after a 5 s sleep. A failed poll request sleeps 5 s, and a failed session acquisition or an unreadable response sleeps 15 s. A well-formed batch is dispatched once per update, in order. A batch with a non-object element dispatches the objects before the first such element, in order, then sleeps 15 s and gets a new session. A sleep is always the last effect of a step |
| LongPoll.Run | src/main/java/vk/chatbot/Connection.java:29-37 | fed any sequence of responses that answer its requests, the loop makes exactly one more request than the responses it received |
| LongPoll.FailedForcesReacquire | src/main/java/vk/chatbot/Connection.java:55-58 | the request after any `failed` response, whatever its code, is a session acquisition |
| LongPoll.PollCursorProvenance | src/main/java/vk/chatbot/Connection.java:31-40 | every poll uses either the cursor of the session just acquired, or the `ts` of the successful poll just before it, made with the same server and key |
| LongPoll.SuccessfulPolls | src/main/java/vk/chatbot/Connection.java:37-68 | during a run of successful polls, every poll uses the same server and key, and the cursor ends as the last response's `ts`. The updates of all batches are dispatched exactly once each, batch after batch, in array order |
| LongPoll.NeverExits | src/main/java/vk/chatbot/Connection.java:76-80 | every response the loop can receive is followed by another request; a failed session acquisition sleeps 15 s and tries again |
| Scraper.ExtractProjectInfo | src/main/java/vk/chatbot/SiteAnalyzer.java:120-134 | a card yields a project exactly when its link has a non-empty `href` and its title and description are present; the project carries those three values. It yields nothing exactly when the link's `href` is null or empty. The lookup throws exactly when the link is missing, or when the URL is usable but the title or description is missing |
| Scraper.AddCardKeepsValid | src/main/java/vk/chatbot/SiteAnalyzer.java:96-108 | handling one card keeps the list free of duplicate URLs and the URL set equal to the set of listed URLs |
| Scraper.ParsePass | src/main/java/vk/chatbot/SiteAnalyzer.java:89-108 | a parse pass only appends to the project list, only grows the URL set, and changes nothing when it adds no project |
| Scraper.ParsePassKeepsValid | src/main/java/vk/chatbot/SiteAnalyzer.java:96-108 | a pass keeps the URLs unique and the URL set equal to the set of listed URLs |
| Scraper.ParsePassAddsOnlyNewUrls | src/main/java/vk/chatbot/SiteAnalyzer.java:99 | every project a pass adds has a URL not parsed before |
| Scraper.ParsePassCoversCards | src/main/java/vk/chatbot/SiteAnalyzer.java:96-104 | after a pass, the URL of every card that yields a project has been parsed |
| Scraper.NewItemsFollowCardOrder | src/main/java/vk/chatbot/SiteAnalyzer.java:96-104 | the projects a pass adds come from cards of the page, in the order the cards appear, and each is the project of the first card that shows its URL |
| Scraper.FirstCardWithUrlWins | src/main/java/vk/chatbot/SiteAnalyzer.java:96-104 | of several cards with the same URL, the first one wins: every project a pass adds is exactly the project of the first card, in page order, whose extraction gives that URL |
| Scraper.RetryFrom | src/main/java/vk/chatbot/SiteAnalyzer.java:68-86 | the retry loop makes no more than the allowed attempts. It reloads the page between attempts but not after the last. It stops on the first attempt that adds a project: every attempt before the last one made ran its pass and added nothing, and so did every attempt when they run out. An aborted pass adds nothing |
| Scraper.EarlierAttemptsAddNothing | src/main/java/vk/chatbot/SiteAnalyzer.java:68-86 | every attempt before the last one made added nothing, and when the attempts run out the last one added nothing either |
| Scraper.ParseCurrentPageWithRetry | src/main/java/vk/chatbot/SiteAnalyzer.java:66-87 | at most `maxRetries` attempts, with one reload fewer. It reports success exactly when the project list grew, and the list then holds what the last attempt's pass produced. Otherwise the list and URL set are unchanged. Unique URLs are preserved |
| Scraper.RetryStopsAtFirstProductiveAttempt | src/main/java/vk/chatbot/SiteAnalyzer.java:66-87 | every attempt before the last one made was unproductive, and after exhaustion every attempt was unproductive |
| Scraper.FirstPageLink | src/main/java/vk/chatbot/SiteAnalyzer.java:148-152 | the first numbered control for the requested page, in document order; none exactly when no control has that number |
| Scraper.FirstEnabledNext | src/main/java/vk/chatbot/SiteAnalyzer.java:155-157 | the first "next" button without the disabled class, in document order; none exactly when every one is disabled |
| Scraper.NavigationPreference | src/main/java/vk/chatbot/SiteAnalyzer.java:136-184 | with no pagination at all, navigation fails. A numbered control for the next page is preferred over the "next" button. Navigation succeeds exactly when the chosen control is displayed and enabled and the click goes through. With no numbered control and no enabled "next" button, it fails |
| Scraper.InitializeParsingSession | src/main/java/vk/chatbot/SiteAnalyzer.java:51-53 | whatever an earlier run left, the URL set is emptied and the page counter is back at 1 |
| Scraper.NavigatedThroughEach | src/main/java/vk/chatbot/SiteAnalyzer.java:34-38 | the page counter moved through a range of pages exactly when navigation succeeded from every page in it |
| Scraper.PageLoop | src/main/java/vk/chatbot/SiteAnalyzer.java:29-40 | the page loop keeps URLs unique and the URL set in step with the list, and only appends. The counter stays within 1..11 and only moves past pages whose navigation succeeded. Stopping for want of a next page means navigation failed on the page it stopped on. It stops on the page limit exactly when the counter reached 11. It leaves the driver in the top-level document |
| Scraper.PageLoopHistory | src/main/java/vk/chatbot/SiteAnalyzer.java:29-40 | the loop passed each page before the one it stopped on only after that page's parse added a project and navigation from it succeeded. It stopped on the page it reached because that page's parse aborted, or its retries ran out, or its parse found projects but navigation failed, or because the page limit was reached. It returns what the earlier pages gathered, plus the last page's projects when navigation was what failed |
| Scraper.PassedPagesEach | src/main/java/vk/chatbot/SiteAnalyzer.java:30-38 | each page of a passed range, entered with what the pages before it gathered, had a parse that added a project and a successful navigation |
| Scraper.PageLoopFrom | src/main/java/vk/chatbot/SiteAnalyzer.java:29-40 | the loop reaching a page continues exactly as the loop started on that page with what it had gathered |
| Scraper.PageLoopProvenance | src/main/java/vk/chatbot/SiteAnalyzer.java:29-40 | every project the loop adds is shown by a card of a page between the first page and the page it stopped on |
| Scraper.PageLoopCoversFoundPage | src/main/java/vk/chatbot/SiteAnalyzer.java:30-34 | on a page the loop moved past, or stopped on because navigation failed, the parse added projects, and the URL of every card of the productive attempt is in the final URL set |
| Scraper.PageLoopFrame | src/main/java/vk/chatbot/SiteAnalyzer.java:18-19 | two sites that agree on the pages up to 10 and the attempts up to 3 give the same page loop |
| Scraper.ParseAllProjects | src/main/java/vk/chatbot/SiteAnalyzer.java:21-49 | a run returns projects with unique URLs, matching the URL set, and parses at most 10 pages. The page counter starts at 1 and goes up only after a successful navigation. A failed start returns no projects with the statics reset. A run stopped by an aborted parse (a card enumeration that throws) or by exhausted retries returns exactly what the pages before its last page gathered. The driver always ends in the top-level document |
| Scraper.StopMatchesLastPage | src/main/java/vk/chatbot/SiteAnalyzer.java:66-87 | when a run stops because the retries ran out, every one of the three attempts on its last page added nothing to what the earlier pages gathered. When it stops because a parse aborted, one attempt's card lookup threw after the attempts before it added nothing. In both cases the run returns what the earlier pages gathered |
| Scraper.RunPassedPagesWereFound | src/main/java/vk/chatbot/SiteAnalyzer.java:30-38 | the run moved past a page only after a parse of that page added a project and navigation from it succeeded |
| Scraper.RunProvenance | src/main/java/vk/chatbot/SiteAnalyzer.java:89-104 | every project a run returns is shown by a card of one of the pages the run reached |
| Scraper.RunCoversFoundPages | src/main/java/vk/chatbot/SiteAnalyzer.java:96-104 | on every page a run moved past, and on the last page when navigation failed there, the URL of every card the productive attempt saw is in the run's URL set |
| Scraper.RunSeesOnlyFirstPages | src/main/java/vk/chatbot/SiteAnalyzer.java:18-19 | what a site shows beyond page 10, or beyond the third attempt on a page, cannot change a run |
| Scraper.RunCounterFollowsNavigation | src/main/java/vk/chatbot/SiteAnalyzer.java:29-38 | every page the counter moved past navigated successfully to the next one |
| Scraper.RunsAreIndependent | src/main/java/vk/chatbot/SiteAnalyzer.java:51-53 | what an earlier run left in the process-wide fields has no effect on the next run |

## Left out

- HTTP transport (OkHttp, timeouts, logging interceptor), URL building and `URLEncoder`, JSON parsing: the long-poll loop receives decoded `Response` values, and the dispatcher receives decoded `Update` values.
- The access token, group id and API version constants (`Connection.java:14-17`): they only go into URLs.
- The `random_id` nonce of `sendMessage` and the HTTP status of a send: a send is an `Outbound` record. A failed send is caught and logged and changes nothing else.
- Sleeps and `Thread.sleep` interruptions: a sleep is a `Backoff` label with its duration.
- The three-thread executor of `processSearchRequest`: the search runs synchronously, so its reply, or the empty-query prompt, comes before the bad-word warning in the output. In the bot the search, prompt included, is submitted to the executor while the warning is sent at once from the dispatching thread, so the warning may go out before the search reply. Neither that order nor the interleaving of concurrent searches is modelled.
- Selenium: the driver, waits, frame switching, scrolling and page reloads are all oracles in `Site` (`initSucceeds`, `cards`, `pagination`). `refreshPage` reloads the page: each reload is counted in `RetryResult.refreshes`, and what the reloaded page shows is the next attempt's view in the `cards` oracle. `waitForPageLoad` and `waitForPageContentLoad` catch all their exceptions and only wait, so the model has no step for them, and neither do the waits inside `refreshPage`.
- `WebDriverProvider.java` is not part of this model.
- Code the processing path never calls: `VkBot.startLongPoll`, `searchOnSite`, `takeScreenshot`, `testSeleniumConnection`, `closeResources`.
- Logging, including the page-title preview built in `parseCurrentPage`.
- `VkBot.allProjects`: it is the `catalog` parameter. Filling it at startup is `ParseAllProjects`.
- Dispatcher.SenderName: the `users.get` request is an oracle from peer id to an optional first name. Every failure, and an empty answer, gives the placeholder name.
- Text.Lower: `toLowerCase` is narrowed to the ASCII and Cyrillic capitals (U+0041..U+005A, U+0400..U+042F), character by character. Java's full Unicode case mapping, including mappings that change length, is not modelled, and neither is `equalsIgnoreCase`'s extra comparison of upper-cased characters (so a text with U+1C84 CYRILLIC SMALL LETTER TALL TE in place of "т" equals the start keyword in Java but not here). It covers every keyword the bot compares.
- Dispatcher.CapMessage: lengths are counted in characters. Java counts UTF-16 code units, so characters outside the Basic Multilingual Plane count once here and twice in Java.
- Dispatcher.FormatSearchResults: the same character-versus-UTF-16 difference applies; the magnifying-glass emoji of its header is one character here.
- Dispatcher.ShortErrorMessage: the 200-character limit counts characters, where Java's `length()` and `substring(0, 200)` count UTF-16 code units. Java's cut can split a surrogate pair and keep a lone high surrogate, which a string of characters here cannot hold.
- Dispatcher.Update: `peerId` is the value after JSON decoding. Decoding `peer_id` with `getAsInt` is not modelled: Gson narrows a numeric value that does not fit in 32 bits to an `int` instead of throwing, and only a non-numeric value throws, which is an `Unreadable` update here.
- The `ConcurrentHashMap`-backed URL set: scraping runs on one thread, so it is an ordinary set.

=== FILE: catalog.dfy ===
/** The catalog record shared by the scraper and the search handler, and the
    URL bookkeeping the scraper's deduplication relies on. */
module Catalog {

  /** One scraped project. The record is immutable: every field is fixed
      at construction. `url` is the deduplication key. */
  datatype ProjectInfo = ProjectInfo(title: string, description: string, url: string)

  /** The title given to the constructor. */
  function GetTitle(p: ProjectInfo): (t: string)
    ensures ProjectInfo(t, p.description, p.url) == p
  {
    p.title
  }

  /** The description given to the constructor. */
  function GetDescription(p: ProjectInfo): (d: string)
    ensures ProjectInfo(p.title, d, p.url) == p
  {
    p.description
  }

  /** The url given to the constructor. */
  function GetUrl(p: ProjectInfo): (u: string)
    ensures ProjectInfo(p.title, p.description, u) == p
  {
    p.url
  }

  /** The set of URLs of a project list. */
  function UrlSet(ps: seq<ProjectInfo>): set<string> {
    set i | 0 <= i < |ps| :: ps[i].url
  }

  /** No two projects share a URL. */
  predicate UniqueUrls(ps: seq<ProjectInfo>) {
    forall i, j :: 0 <= i < j < |ps| ==> ps[i].url != ps[j].url
  }

  /** Appending a project whose URL is new keeps the URLs unique and adds
      exactly that URL to the URL set. */
  lemma {:induction false} AppendFresh(ps: seq<ProjectInfo>, p: ProjectInfo)
    ensures UrlSet(ps + [p]) == UrlSet(ps) + {p.url}
    ensures UniqueUrls(ps) && p.url !in UrlSet(ps) ==> UniqueUrls(ps + [p])
  {
    var qs := ps + [p];
    forall u | u in UrlSet(qs)
      ensures u in UrlSet(ps) + {p.url}
    {
      var i :| 0 <= i < |qs| && qs[i].url == u;
      if i < |ps| {
        assert ps[i].url == u;
      }
    }
    forall u | u in UrlSet(ps)
      ensures u in UrlSet(qs)
    {
      var i :| 0 <= i < |ps| && ps[i].url == u;
      assert qs[i].url == u;
    }
    assert qs[|ps|].url == p.url;
    if UniqueUrls(ps) && p.url !in UrlSet(ps) {
      forall i | 0 <= i < |ps|
        ensures (ps + [p])[i].url != p.url
      {
        assert ps[i].url in UrlSet(ps);
      }
    }
  }
}

=== FILE: dispatcher.dfy ===
/** The message dispatcher of the bot: what one decoded update makes the
    bot send, and the pure text helpers it uses. Sends are an output
    sequence of (peer, text) pairs; the HTTP call, its nonce and its
    failures are not part of the model. */
module Dispatcher {
  import opened Wrappers
  import opened Catalog
  import opened Text

  /** The platform's limit on the length of one outgoing message. */
  const MESSAGE_LIMIT: nat := 4096
  /** `getShortErrorMessage` keeps this many characters of a message. */
  const SHORT_ERROR_LIMIT: nat := 200

  const START_KEYWORD := "начать"
  const SEARCH_KEYWORD := "найди"
  const YES_NO_PREFIXES: seq<string> := ["можно ли", "возможно ли", "есть ли"]
  const BAD_WORDS: seq<string> := ["плохое_слово1", "плохое_слово2"]

  const YES_ANSWER := "Да."
  const FALLBACK_NAME := "Друг"
  const EMPTY_QUERY_PROMPT := "Пожалуйста, укажите поисковый запрос после команды \"найди\""
  const NOT_FOUND_ANSWER :=
    "Я не нашёл точного ответа на ваш вопрос. Попробуйте задать его иначе или воспользуйтесь поиском на сайте: https://education.vk.company/education_projects"
  const BAD_WORDS_WARNING := "⚠️ Ваше сообщение содержит некорректные выражения."
  const HELP_TEXT :=
    "Доступные команды:\n"
    + "• \"начать\" - приветственное сообщение\n"
    + "• \"найди [запрос]\" - поиск информации\n\n"
    + "Пример: \"найди курсы по Java\""

  /** A decoded long-poll update. `Unreadable` stands for an object whose
      type, peer id or text cannot be read; reading it throws inside the
      handler, which swallows the exception. */
  datatype Update =
    | MessageNew(peerId: int, text: string)
    | OtherType(kind: string)
    | Unreadable

  /** One call of the send-message endpoint. */
  datatype Outbound = Outbound(peerId: int, text: string)

  datatype Command = Start | Search | YesNo | Help

  /** A routing rule: when `applies` holds of the trimmed text, `command`
      handles it. */
  datatype Rule = Rule(applies: string -> bool, command: Command)

  // ------------------------------------------------------------- routing

  predicate IsStartCommand(text: string) {
    EqualsIgnoreCase(text, START_KEYWORD)
  }

  predicate IsSearchCommand(text: string) {
    StartsWith(Lower(text), SEARCH_KEYWORD)
  }

  /** `isYesNoQuestion`: the lower-cased text starts with one of the three
      interrogative prefixes. */
  predicate IsYesNoQuestion(text: string) {
    var lower := Lower(text);
    StartsWith(lower, YES_NO_PREFIXES[0])
    || StartsWith(lower, YES_NO_PREFIXES[1])
    || StartsWith(lower, YES_NO_PREFIXES[2])
  }

  /** The routing cascade of `processUpdate`, in priority order. */
  const ROUTES: seq<Rule> := [
    Rule(IsStartCommand, Start),
    Rule(IsSearchCommand, Search),
    Rule(IsYesNoQuestion, YesNo)
  ]

  /** The command of the first rule that applies, or `Help` when none does. */
  function FirstRule(rules: seq<Rule>, text: string): (c: Command)
    ensures forall i :: 0 <= i < |rules| && rules[i].applies(text)
              && (forall j :: 0 <= j < i ==> !rules[j].applies(text))
              ==> c == rules[i].command
    ensures (forall i :: 0 <= i < |rules| ==> !rules[i].applies(text)) ==> c == Help
  {
    if rules == [] then Help
    else if rules[0].applies(text) then rules[0].command
    else
      var c := FirstRule(rules[1..], text);
      assert forall i :: 1 <= i < |rules| ==> rules[1..][i - 1] == rules[i];
      c
  }

  function Route(text: string): Command {
    FirstRule(ROUTES, text)
  }

  /** Routing is first-match: each command is chosen exactly when its own
      test holds and no earlier test does. */
  lemma RoutePriority(text: string)
    ensures Route(text) == Start <==> IsStartCommand(text)
    ensures Route(text) == Search <==> !IsStartCommand(text) && IsSearchCommand(text)
    ensures (Route(text) == YesNo)
              <==> (!IsStartCommand(text) && !IsSearchCommand(text) && IsYesNoQuestion(text))
    ensures (Route(text) == Help)
              <==> (!IsStartCommand(text) && !IsSearchCommand(text) && !IsYesNoQuestion(text))
  {
    assert ROUTES[0].applies(text) == IsStartCommand(text);
    assert ROUTES[1].applies(text) == IsSearchCommand(text);
    assert ROUTES[2].applies(text) == IsYesNoQuestion(text);
  }

  // ------------------------------------------------------------- answers

  /** `answerYesNo` ignores the question and always affirms. */
  function AnswerYesNo(text: string): (r: string)
    ensures r == YES_ANSWER
  {
    YES_ANSWER
  }

  /** A catalog item matches a query when its lower-cased title or
      description contains the lower-cased query. */
  predicate Matches(p: ProjectInfo, query: string) {
    Contains(Lower(p.title), Lower(query)) || Contains(Lower(p.description), Lower(query))
  }

  /** The index of the first matching catalog item, if any. */
  function FirstMatch(catalog: seq<ProjectInfo>, query: string): (r: Option<nat>)
    ensures r.Some? ==> r.value < |catalog| && Matches(catalog[r.value], query)
    ensures r.Some? ==> forall j :: 0 <= j < r.value ==> !Matches(catalog[j], query)
    ensures r.None? <==> forall j :: 0 <= j < |catalog| ==> !Matches(catalog[j], query)
  {
    if catalog == [] then None
    else if Matches(catalog[0], query) then Some(0)
    else
      match FirstMatch(catalog[1..], query)
      case None =>
        assert forall j :: 1 <= j < |catalog| ==> catalog[1..][j - 1] == catalog[j];
        None
      case Some(i) =>
        assert forall j :: 1 <= j < |catalog| ==> catalog[1..][j - 1] == catalog[j];
        Some(i + 1)
  }

  /** The reply describing one project. */
  function Describe(p: ProjectInfo): string {
    "Нашёл проект:\n" + p.title + "\n" + p.description + "\n" + p.url
  }

  /** `generateAnswer`: the description of the first catalog item, in list
      order, that matches the query; the fixed fallback when none does. */
  function GenerateAnswer(query: string, catalog: seq<ProjectInfo>): (r: string)
    ensures forall i :: 0 <= i < |catalog| && Matches(catalog[i], query)
              && (forall j :: 0 <= j < i ==> !Matches(catalog[j], query))
              ==> r == Describe(catalog[i])
    ensures (forall i :: 0 <= i < |catalog| ==> !Matches(catalog[i], query))
              ==> r == NOT_FOUND_ANSWER
  {
    match FirstMatch(catalog, query)
    case Some(i) => Describe(catalog[i])
    case None => NOT_FOUND_ANSWER
  }

  /** The texts `processSearchRequest` sends for a search command: the
      query is the text after its first five characters, trimmed; an empty
      query gets the prompt and no lookup. A text shorter than five
      characters makes `substring` throw inside the worker task, and
      nothing is sent. */
  function SearchReplies(text: string, catalog: seq<ProjectInfo>): (rs: seq<string>)
    ensures |text| < 5 ==> rs == []
    ensures |text| >= 5 && Trim(text[5..]) == [] ==> rs == [EMPTY_QUERY_PROMPT]
    ensures |text| >= 5 && Trim(text[5..]) != [] ==> rs == [GenerateAnswer(Trim(text[5..]), catalog)]
  {
    if |text| < 5 then []
    else
      var query := Trim(text[5..]);
      if query == [] then [EMPTY_QUERY_PROMPT] else [GenerateAnswer(query, catalog)]
  }

  /** The greeting `sendWelcomeMessage` sends first. */
  function Welcome(name: string): string {
    "Привет, " + name + "! Я бот по поиску информации на VK Education Projects"
  }

  /** `getSenderName`: the looked-up first name, or the placeholder when the
      lookup fails or finds nobody. */
  function SenderName(names: int -> Option<string>, peerId: int): string {
    names(peerId).GetOr(FALLBACK_NAME)
  }

  /** `containsBadWords`: the lower-cased text contains a listed word. */
  predicate ContainsBadWords(text: string) {
    Contains(Lower(text), BAD_WORDS[0]) || Contains(Lower(text), BAD_WORDS[1])
  }

  /** Every test of `processUpdate` ignores case: lower-casing the text
      first changes neither the command it is routed to nor the bad-word
      warning. */
  lemma RoutingIgnoresCase(text: string)
    ensures IsStartCommand(Lower(text)) == IsStartCommand(text)
    ensures IsSearchCommand(Lower(text)) == IsSearchCommand(text)
    ensures IsYesNoQuestion(Lower(text)) == IsYesNoQuestion(text)
    ensures Route(Lower(text)) == Route(text)
    ensures ContainsBadWords(Lower(text)) == ContainsBadWords(text)
  {
    LowerIdempotent(text);
    forall i | 0 <= i < |text|
      ensures LowerChar(Lower(text)[i]) == LowerChar(text[i])
    {
      LowerCharIdempotent(text[i]);
    }
    RoutePriority(text);
    RoutePriority(Lower(text));
  }

  /** The bad-word test holds exactly when some listed word occurs at some
      position of the lower-cased text. */
  lemma BadWordsIffOccurs(text: string)
    ensures ContainsBadWords(text)
            <==> exists w, k :: 0 <= w < |BAD_WORDS| && OccursAt(Lower(text), BAD_WORDS[w], k)
  {
    ContainsIffOccurs(Lower(text), BAD_WORDS[0]);
    ContainsIffOccurs(Lower(text), BAD_WORDS[1]);
  }

  // ------------------------------------------------------ length capping

  /** The truncation `sendMessage` applies before sending. */
  function CapMessage(text: string): (r: string)
    ensures |r| <= MESSAGE_LIMIT
    ensures |text| <= MESSAGE_LIMIT ==> r == text
    ensures |text| > MESSAGE_LIMIT ==>
              |r| == MESSAGE_LIMIT && StartsWith(text, r[..MESSAGE_LIMIT - 3])
              && r[MESSAGE_LIMIT - 3..] == "..."
  {
    if |text| > MESSAGE_LIMIT then text[..MESSAGE_LIMIT - 3] + "..." else text
  }

  /** Capping twice is capping once. */
  lemma CapIdempotent(text: string)
    ensures CapMessage(CapMessage(text)) == CapMessage(text)
  {
  }

  function SendMessage(peerId: int, text: string): Outbound {
    Outbound(peerId, CapMessage(text))
  }

  /** Every text goes to `peerId` through the cap, in order. */
  function SendAll(peerId: int, texts: seq<string>): (out: seq<Outbound>)
    ensures |out| == |texts|
    ensures forall i :: 0 <= i < |texts| ==> out[i] == Outbound(peerId, CapMessage(texts[i]))
  {
    seq(|texts|, i requires 0 <= i < |texts| => SendMessage(peerId, texts[i]))
  }

  /** `formatSearchResults`: a header naming the query, then the results
      cut to `MESSAGE_LIMIT - 100` characters. */
  function FormatSearchResults(query: string, results: string): (r: string)
    ensures var head := "\U{1F50D} Результаты по запросу \"" + query + "\":\n";
            && StartsWith(r, head)
            && |r| - |head| == (if |results| < MESSAGE_LIMIT - 100 then |results| else MESSAGE_LIMIT - 100)
            && StartsWith(results, r[|head|..])
  {
    var kept := if |results| < MESSAGE_LIMIT - 100 then |results| else MESSAGE_LIMIT - 100;
    "\U{1F50D} Результаты по запросу \"" + query + "\":\n" + results[..kept]
  }

  /** `getShortErrorMessage`: at most the first 200 characters of the
      exception's message. A null message makes `length()` throw, which is
      `None` here. */
  function ShortErrorMessage(message: Option<string>): (r: Option<string>)
    ensures r.Some? <==> message.Some?
    ensures r.Some? ==> |r.value| <= SHORT_ERROR_LIMIT && StartsWith(message.value, r.value)
    ensures r.Some? && |message.value| <= SHORT_ERROR_LIMIT ==> r.value == message.value
    ensures r.Some? && |message.value| > SHORT_ERROR_LIMIT ==> |r.value| == SHORT_ERROR_LIMIT
  {
    match message
    case None => None
    case Some(m) =>
      Some(m[..if |m| < SHORT_ERROR_LIMIT then |m| else SHORT_ERROR_LIMIT])
  }

  /** `cleanText`: runs of whitespace become one space, then the ends are
      trimmed. */
  function CleanText(text: string): (r: string)
    ensures r == [] || (!IsTrimmable(r[0]) && !IsTrimmable(r[|r| - 1]))
    ensures NoAdjacentSpaces(r)
    ensures forall i :: 0 <= i < |r| && IsRegexSpace(r[i]) ==> r[i] == ' '
  {
    var c := CollapseSpaces(text);
    var r := Trim(c);
    SliceKeepsSpacing(c, TrimOffset(c), TrimOffset(c) + |r|);
    r
  }

  /** Cleaning is the trim of the position-by-position collapse: inner runs
      of whitespace each leave exactly one space. */
  lemma CleanTextMatchesReference(text: string)
    ensures CleanText(text) == Trim(CollapseFrom(text, 0))
  {
    CollapseMatchesReference(text);
  }

  /** Cleaning keeps every character above U+0020, in order. */
  lemma CleanTextKeepsVisible(text: string)
    ensures Visible(CleanText(text)) == Visible(text)
  {
    CollapseKeepsVisible(text);
    TrimKeepsVisible(CollapseSpaces(text));
  }

  /** Cleaning an already cleaned text changes nothing. */
  lemma CleanTextIdempotent(text: string)
    ensures CleanText(CleanText(text)) == CleanText(text)
  {
    var r := CleanText(text);
    CollapseIdentity(r);
    TrimIdentity(r);
  }

  // ------------------------------------------------------------ dispatch

  /** The texts the routed handler sends for a trimmed message text. */
  function RoutedReplies(text: string, peerId: int, catalog: seq<ProjectInfo>,
                         names: int -> Option<string>): (rs: seq<string>)
    ensures 1 <= |rs| <= 2
    ensures IsStartCommand(text) ==> rs == [Welcome(SenderName(names, peerId)), HELP_TEXT]
    ensures !IsStartCommand(text) && IsSearchCommand(text) ==>
              |text| >= 5
              && rs == (if Trim(text[5..]) == [] then [EMPTY_QUERY_PROMPT]
                        else [GenerateAnswer(Trim(text[5..]), catalog)])
    ensures !IsStartCommand(text) && !IsSearchCommand(text) && IsYesNoQuestion(text) ==> rs == [YES_ANSWER]
    ensures !IsStartCommand(text) && !IsSearchCommand(text) && !IsYesNoQuestion(text) ==> rs == [HELP_TEXT]
  {
    RoutePriority(text);
    match Route(text)
    case Start => [Welcome(SenderName(names, peerId)), HELP_TEXT]
    case Search => SearchReplies(text, catalog)
    case YesNo => [AnswerYesNo(text)]
    case Help => [HELP_TEXT]
  }

  /** `processUpdate`: updates other than readable `message_new` ones send
      nothing; a message sends the routed replies and then, when it holds a
      listed word, one warning. The handler never fails. */
  function ProcessUpdate(u: Update, catalog: seq<ProjectInfo>,
                         names: int -> Option<string>): (out: seq<Outbound>)
    ensures !u.MessageNew? ==> out == []
    ensures u.MessageNew? ==> 1 <= |out| <= 3
    ensures forall i :: 0 <= i < |out| ==> out[i].peerId == u.peerId
    ensures forall i :: 0 <= i < |out| ==> |out[i].text| <= MESSAGE_LIMIT
  {
    match u
    case MessageNew(peerId, raw) =>
      var text := Trim(raw);
      var warning := if ContainsBadWords(text) then [BAD_WORDS_WARNING] else [];
      SendAll(peerId, RoutedReplies(text, peerId, catalog, names) + warning)
    case _ => []
  }

  /** The bad-word check runs after routing and only appends: the routed
      replies are sent first and unchanged, followed by the warning exactly
      when the text holds a listed word. */
  lemma WarningOnlyAppends(peerId: int, raw: string, catalog: seq<ProjectInfo>,
                           names: int -> Option<string>)
    ensures var text := Trim(raw);
            var routed := SendAll(peerId, RoutedReplies(text, peerId, catalog, names));
            var out := ProcessUpdate(MessageNew(peerId, raw), catalog, names);
            && |routed| <= |out|
            && out[..|routed|] == routed
            && |out| == |routed| + (if ContainsBadWords(text) then 1 else 0)
            && (ContainsBadWords(text) ==> out[|routed|] == Outbound(peerId, BAD_WORDS_WARNING))
  {
  }

  /** The start keyword, in any case, sends exactly the greeting and then
      the help text, and never the warning. */
  lemma StartSendsGreetingThenHelp(peerId: int, raw: string, catalog: seq<ProjectInfo>,
                                   names: int -> Option<string>)
    requires IsStartCommand(Trim(raw))
    ensures ProcessUpdate(MessageNew(peerId, raw), catalog, names)
            == [Outbound(peerId, CapMessage(Welcome(SenderName(names, peerId)))),
                Outbound(peerId, HELP_TEXT)]
  {
    var text := Trim(raw);
    RoutePriority(text);
    assert |Lower(text)| == 6;
    assert !ContainsBadWords(text);
    assert |HELP_TEXT| <= MESSAGE_LIMIT;
  }

  /** A search command with an empty query sends only the prompt and does
      not consult the catalog. */
  lemma EmptyQuerySendsPrompt(peerId: int, raw: string, catalog: seq<ProjectInfo>,
                              names: int -> Option<string>)
    requires var text := Trim(raw);
             IsSearchCommand(text) && !IsStartCommand(text) && Trim(text[5..]) == []
    ensures var out := ProcessUpdate(MessageNew(peerId, raw), catalog, names);
            |out| >= 1 && out[0] == Outbound(peerId, EMPTY_QUERY_PROMPT)
            && forall c :: ProcessUpdate(MessageNew(peerId, raw), c, names) == out
  {
    RoutePriority(Trim(raw));
  }

  /** A search command with a non-empty query sends first the answer built
      from the catalog for the trimmed query, capped to the message limit,
      whoever the sender is. */
  lemma SearchSendsAnswer(peerId: int, raw: string, catalog: seq<ProjectInfo>,
                          names: int -> Option<string>)
    requires var text := Trim(raw);
             !IsStartCommand(text) && IsSearchCommand(text) && Trim(text[5..]) != []
    ensures var text := Trim(raw);
            var out := ProcessUpdate(MessageNew(peerId, raw), catalog, names);
            && |out| >= 1
            && out[0] == Outbound(peerId, CapMessage(GenerateAnswer(Trim(text[5..]), catalog)))
            && forall n :: ProcessUpdate(MessageNew(peerId, raw), catalog, n) == out
  {
    RoutePriority(Trim(raw));
  }

  /** A yes/no question, one that neither the start nor the search test
      takes, is answered first with the affirmative reply, whatever the
      catalog and the name lookup hold. */
  lemma YesNoSendsAffirmative(peerId: int, raw: string, catalog: seq<ProjectInfo>,
                              names: int -> Option<string>)
    requires var text := Trim(raw);
             !IsStartCommand(text) && !IsSearchCommand(text) && IsYesNoQuestion(text)
    ensures var out := ProcessUpdate(MessageNew(peerId, raw), catalog, names);
            |out| >= 1 && out[0] == Outbound(peerId, YES_ANSWER)
            && forall c, n :: ProcessUpdate(MessageNew(peerId, raw), c, n) == out
  {
    RoutePriority(Trim(raw));
  }

  /** A text no handler takes is answered first with the help text. */
  lemma UnknownTextSendsHelp(peerId: int, raw: string, catalog: seq<ProjectInfo>,
                             names: int -> Option<string>)
    requires var text := Trim(raw);
             !IsStartCommand(text) && !IsSearchCommand(text) && !IsYesNoQuestion(text)
    ensures var out := ProcessUpdate(MessageNew(peerId, raw), catalog, names);
            |out| >= 1 && out[0] == Outbound(peerId, HELP_TEXT)
  {
    RoutePriority(Trim(raw));
    assert |HELP_TEXT| <= MESSAGE_LIMIT;
  }
}

=== FILE: long_poll.dfy ===
/** The long-poll session loop of `Connection.startLongPoll` as a pure step
    function. The transport is an oracle: each request the loop issues is
    answered by one already-decoded `Response`. Sleeps are labelled
    `Backoff` effects, and every update handed to the dispatcher is a
    `Dispatch` effect, in the order it happens. */
module LongPoll {
  import opened Wrappers
  import Dispatcher

  /** The `wait` parameter of every poll request, in seconds. */
  const WAIT_SECONDS: int := 25
  /** Sleep after an `IOException` inside the poll loop. */
  const IO_BACKOFF_MS: int := 5000
  /** Sleep after any other exception, at the outer loop. */
  const CRITICAL_BACKOFF_MS: int := 15000

  /** `NeedSession`: the outer loop is about to call `getServerData`.
      `Active`: the inner loop polls with this session triple. */
  datatype State =
    | NeedSession
    | Active(server: string, key: string, ts: string)

  datatype Request =
    | AcquireSession
    | Poll(server: string, key: string, ts: string, wait: int)

  /** One element of a response's `updates` array: a JSON object, or
      something else, on which `getAsJsonObject` throws. */
  datatype BatchElement = UpdateObject(update: Dispatcher.Update) | NotAnObject

  /** The answers the transport can give.
      - `AcquireOk`: the server data of a session acquisition.
      - `AcquireError`: the acquisition failed (an `error` payload, a
        transport failure, or an unreadable body).
      - `PollHttpError`: a non-2xx poll response or an I/O failure.
      - `PollFailed`: a poll response carrying `failed`, with the `ts` it
        may also carry.
      - `PollOk`: a poll response with `ts` and, optionally, `updates`.
      - `Malformed`: a poll response that is not JSON, lacks `ts`, or whose
        fields have the wrong shape. */
  datatype Response =
    | AcquireOk(server: string, key: string, ts: string)
    | AcquireError
    | PollHttpError
    | PollFailed(code: int, failedTs: Option<string>)
    | PollOk(ts: string, updates: Option<seq<BatchElement>>)
    | Malformed

  datatype Effect = Dispatch(update: Dispatcher.Update) | Backoff(ms: int)

  datatype Transition = Transition(next: State, effects: seq<Effect>)

  /** The request the loop issues in a state: a poll is built from the
      current session triple and the fixed wait. */
  function NextRequest(s: State): (q: Request)
    ensures s.NeedSession? <==> q.AcquireSession?
    ensures s.Active? ==> q == Poll(s.server, s.key, s.ts, WAIT_SECONDS)
  {
    match s
    case NeedSession => AcquireSession
    case Active(server, key, ts) => Poll(server, key, ts, WAIT_SECONDS)
  }

  /** Which responses can answer which request. */
  predicate Answers(r: Response, q: Request) {
    if q.AcquireSession? then r.AcquireOk? || r.AcquireError?
    else r.PollHttpError? || r.PollFailed? || r.PollOk? || r.Malformed?
  }

  /** The elements of a batch before its first non-object. */
  function ObjectPrefix(elems: seq<BatchElement>): (k: nat)
    ensures k <= |elems|
    ensures forall i :: 0 <= i < k ==> elems[i].UpdateObject?
    ensures k < |elems| ==> elems[k].NotAnObject?
  {
    if elems == [] || elems[0].NotAnObject? then 0
    else
      var k := ObjectPrefix(elems[1..]);
      assert forall i :: 1 <= i < |elems| ==> elems[1..][i - 1] == elems[i];
      k + 1
  }

  /** Hands each update object to the dispatcher, in array order. */
  function DispatchAll(elems: seq<BatchElement>): (es: seq<Effect>)
    requires forall i :: 0 <= i < |elems| ==> elems[i].UpdateObject?
    ensures |es| == |elems|
    ensures forall i :: 0 <= i < |elems| ==> es[i] == Dispatch(elems[i].update)
  {
    seq(|elems|, i requires 0 <= i < |elems| => Dispatch(elems[i].update))
  }

  /** A batch is well formed when every element is an object; an absent
      `updates` field is the empty batch. */
  function BatchOf(updates: Option<seq<BatchElement>>): seq<BatchElement> {
    updates.GetOr([])
  }

  predicate WellFormedBatch(updates: Option<seq<BatchElement>>) {
    forall i :: 0 <= i < |BatchOf(updates)| ==> BatchOf(updates)[i].UpdateObject?
  }

  /** The updates of a batch, in array order. */
  function UpdatesOf(updates: Option<seq<BatchElement>>): (us: seq<Dispatcher.Update>)
    requires WellFormedBatch(updates)
    ensures |us| == |BatchOf(updates)|
    ensures forall i :: 0 <= i < |us| ==> BatchOf(updates)[i] == UpdateObject(us[i])
  {
    var elems := BatchOf(updates);
    seq(|elems|, i requires 0 <= i < |elems| => elems[i].update)
  }

  /** The effects are exactly one dispatch per update, in order. */
  predicate DispatchesExactly(es: seq<Effect>, us: seq<Dispatcher.Update>) {
    |es| == |us| && forall i :: 0 <= i < |es| ==> es[i] == Dispatch(us[i])
  }

  lemma DispatchesConcat(a: seq<Effect>, u: seq<Dispatcher.Update>,
                         b: seq<Effect>, v: seq<Dispatcher.Update>)
    requires DispatchesExactly(a, u) && DispatchesExactly(b, v)
    ensures DispatchesExactly(a + b, u + v)
  {
    forall i | 0 <= i < |a + b|
      ensures (a + b)[i] == Dispatch((u + v)[i])
    {
      if i >= |a| {
        assert (a + b)[i] == b[i - |a|];
        assert (u + v)[i] == v[i - |a|];
      }
    }
  }

  /** One turn of the loop: the state the loop is in after the response, and
      what it did in between.
      - A successful acquisition starts polling with the new triple.
      - A failed acquisition, and any poll response that throws something
        other than an `IOException`, sleeps 15 s and reacquires.
      - A transport failure of a poll sleeps 5 s and reacquires.
      - Every `failed` response leaves the inner loop, so it reacquires:
        code 1 at once, any other code after the 5 s sleep of the
        `IOException` it raises. Its `ts` is never read.
      - A successful poll replaces `ts` and dispatches the batch in order;
        a non-object element aborts the batch after the elements before it
        were dispatched, with the 15 s sleep. */
  function Step(s: State, r: Response): (t: Transition)
    requires Answers(r, NextRequest(s))
    ensures t.next.Active? && s.Active? ==>
              r.PollOk? && t.next == Active(s.server, s.key, r.ts)
    ensures t.next.Active? && s.NeedSession? ==>
              r.AcquireOk? && t.next == Active(r.server, r.key, r.ts)
    ensures r.AcquireOk? ==> t == Transition(Active(r.server, r.key, r.ts), [])
    ensures r.PollOk? && WellFormedBatch(r.updates) ==>
              t.next == Active(s.server, s.key, r.ts)
              && DispatchesExactly(t.effects, UpdatesOf(r.updates))
    ensures r.PollOk? && !WellFormedBatch(r.updates) ==>
              var elems := BatchOf(r.updates);
              var k := ObjectPrefix(elems);
              && k < |elems| && elems[k].NotAnObject?
              && t.next == NeedSession
              && |t.effects| == k + 1
              && (forall i :: 0 <= i < k ==> t.effects[i] == Dispatch(elems[i].update))
              && t.effects[k] == Backoff(CRITICAL_BACKOFF_MS)
    ensures r.PollFailed? ==> t.next == NeedSession
    ensures r.PollFailed? && r.code == 1 ==> t.effects == []
    ensures r.PollFailed? && r.code != 1 ==> t.effects == [Backoff(IO_BACKOFF_MS)]
    ensures r.PollHttpError? ==> t == Transition(NeedSession, [Backoff(IO_BACKOFF_MS)])
    ensures r.Malformed? || r.AcquireError? ==>
              t == Transition(NeedSession, [Backoff(CRITICAL_BACKOFF_MS)])
    ensures forall i :: 0 <= i < |t.effects| && t.effects[i].Backoff? ==> i == |t.effects| - 1
  {
    match r
    case AcquireOk(server, key, ts) => Transition(Active(server, key, ts), [])
    case AcquireError => Transition(NeedSession, [Backoff(CRITICAL_BACKOFF_MS)])
    case PollHttpError => Transition(NeedSession, [Backoff(IO_BACKOFF_MS)])
    case PollFailed(code, _) =>
      if code == 1 then Transition(NeedSession, [])
      else Transition(NeedSession, [Backoff(IO_BACKOFF_MS)])
    case PollOk(ts, updates) =>
      var elems := BatchOf(updates);
      var k := ObjectPrefix(elems);
      if k == |elems| then
        Transition(Active(s.server, s.key, ts), DispatchAll(elems))
      else
        Transition(NeedSession, DispatchAll(elems[..k]) + [Backoff(CRITICAL_BACKOFF_MS)])
    case Malformed => Transition(NeedSession, [Backoff(CRITICAL_BACKOFF_MS)])
  }

  /** The responses answer, one by one, the requests the loop issues. */
  predicate Conforms(s: State, rs: seq<Response>)
    decreases |rs|
  {
    rs == [] || (Answers(rs[0], NextRequest(s)) && Conforms(Step(s, rs[0]).next, rs[1..]))
  }

  /** What a run of the loop did: the requests it issued, the effects in
      between, and where it stands. */
  datatype Trace = Trace(final: State, requests: seq<Request>, effects: seq<Effect>)

  /** The loop fed with a sequence of responses. It never exits: every
      response is followed by exactly one further request. */
  function Run(s: State, rs: seq<Response>): (t: Trace)
    requires Conforms(s, rs)
    ensures |t.requests| == |rs| + 1
    ensures t.requests[0] == NextRequest(s)
    ensures t.requests[|rs|] == NextRequest(t.final)
    decreases |rs|
  {
    if rs == [] then Trace(s, [NextRequest(s)], [])
    else
      var step := Step(s, rs[0]);
      var rest := Run(step.next, rs[1..]);
      Trace(rest.final, [NextRequest(s)] + rest.requests, step.effects + rest.effects)
  }

  /** Every response carrying `failed`, whatever its code, is followed by a
      session acquisition, never by a poll. */
  lemma {:induction false} FailedForcesReacquire(s: State, rs: seq<Response>, i: nat)
    requires Conforms(s, rs)
    requires i < |rs| && rs[i].PollFailed?
    ensures Run(s, rs).requests[i + 1] == AcquireSession
    decreases |rs|
  {
    if i > 0 {
      FailedForcesReacquire(Step(s, rs[0]).next, rs[1..], i - 1);
    }
  }

  /** Every poll the loop issues uses the cursor of the response just before
      it: either a fresh session's `ts`, or the `ts` of a successful poll
      made with the same server and key. */
  lemma {:induction false} PollCursorProvenance(s: State, rs: seq<Response>, i: nat)
    requires Conforms(s, rs)
    requires i < |rs| && Run(s, rs).requests[i + 1].Poll?
    ensures var q := Run(s, rs).requests[i + 1];
            var prev := Run(s, rs).requests[i];
            || (rs[i] == AcquireOk(q.server, q.key, q.ts) && prev == AcquireSession)
            || (rs[i].PollOk? && rs[i].ts == q.ts
                && prev.Poll? && prev.server == q.server && prev.key == q.key)
    decreases |rs|
  {
    if i > 0 {
      PollCursorProvenance(Step(s, rs[0]).next, rs[1..], i - 1);
    } else {
      var next := Step(s, rs[0]).next;
      assert Run(s, rs).requests[1] == Run(next, rs[1..]).requests[0] == NextRequest(next);
    }
  }

  /** All updates of a run of successful polls, in order. */
  function AllUpdates(rs: seq<Response>): seq<Dispatcher.Update>
    requires forall i :: 0 <= i < |rs| ==> rs[i].PollOk? && WellFormedBatch(rs[i].updates)
    decreases |rs|
  {
    if rs == [] then [] else UpdatesOf(rs[0].updates) + AllUpdates(rs[1..])
  }

  /** Within a run of successful polls the session keeps its server and key,
      the cursor is the `ts` of the latest response however many updates it
      carried, and the updates of all batches are dispatched exactly once
      each, batch after batch, in array order. */
  lemma {:induction false} SuccessfulPolls(server: string, key: string, ts: string,
                                           rs: seq<Response>)
    requires forall i :: 0 <= i < |rs| ==> rs[i].PollOk? && WellFormedBatch(rs[i].updates)
    ensures Conforms(Active(server, key, ts), rs)
    ensures var t := Run(Active(server, key, ts), rs);
            && t.final == Active(server, key, if rs == [] then ts else rs[|rs| - 1].ts)
            && (forall j :: 0 <= j < |t.requests| ==>
                  (t.requests[j].Poll? && t.requests[j].server == server
                   && t.requests[j].key == key && t.requests[j].wait == WAIT_SECONDS))
            && DispatchesExactly(t.effects, AllUpdates(rs))
    decreases |rs|
  {
    if rs != [] {
      var step := Step(Active(server, key, ts), rs[0]);
      var rest' := rs[1..];
      assert forall i :: 0 <= i < |rest'| ==> rest'[i] == rs[i + 1];
      SuccessfulPolls(server, key, rs[0].ts, rest');
      var rest := Run(step.next, rest');
      var t := Run(Active(server, key, ts), rs);
      assert t.requests == [NextRequest(Active(server, key, ts))] + rest.requests;
      if |rs| > 1 {
        assert rest'[|rest'| - 1] == rs[|rs| - 1];
      }
      DispatchesConcat(step.effects, UpdatesOf(rs[0].updates), rest.effects, AllUpdates(rest'));
    }
  }

  /** The loop never exits: from any state, every response it can receive
      is accepted and followed by a next request. Session acquisition
      errors sleep 15 s and try again. */
  lemma NeverExits(s: State, r: Response)
    requires Answers(r, NextRequest(s))
    ensures Conforms(s, [r])
    ensures |Run(s, [r]).requests| == 2
    ensures r.AcquireError? ==>
              Run(s, [r]) == Trace(NeedSession, [AcquireSession, AcquireSession],
                                   [Backoff(CRITICAL_BACKOFF_MS)])
  {
    assert [r][1..] == [];
  }
}

=== FILE: scraper.dfy ===
/** The paginated catalog scraper of `SiteAnalyzer`. The browser is an
    oracle: for each (page counter, attempt) it yields the project cards
    the parse pass sees, or `None` when enumerating them throws; for each
    page counter it yields the pagination controls present. The
    process-wide `parsedUrls` and `currentPageNumber` are explicit state. */
module Scraper {
  import opened Wrappers
  import opened Catalog

  const MAX_PAGES: int := 10
  const MAX_RETRIES: int := 3

  // --------------------------------------------------------------- cards

  /** The card's first link: absent (the lookup throws), or present with a
      possibly null `href`. */
  datatype Anchor = NoAnchor | Anchor(href: Option<string>)

  /** What a project card offers: its link and the texts of its title and
      description elements, each possibly missing. */
  datatype CardView = CardView(anchor: Anchor, title: Option<string>, description: Option<string>)

  /** `extractProjectInfo`: a project, `null` (no usable URL), or a thrown
      lookup failure. */
  datatype Extraction = Extracted(project: ProjectInfo) | NoUrl | ExtractFailed

  /** The link is looked up first; a null or empty `href` gives `null`
      before the title and description are looked up; a missing element
      throws. */
  function ExtractProjectInfo(card: CardView): (e: Extraction)
    ensures e.Extracted? ==>
              && e.project.url != []
              && card.anchor == Anchor(Some(e.project.url))
              && card.title == Some(e.project.title)
              && card.description == Some(e.project.description)
    ensures e.NoUrl? <==> card.anchor.Anchor? && (card.anchor.href == None || card.anchor.href == Some([]))
    ensures e.ExtractFailed? <==>
              || card.anchor.NoAnchor?
              || (card.anchor.href.Some? && card.anchor.href.value != []
                  && (card.title.None? || card.description.None?))
  {
    match card.anchor
    case NoAnchor => ExtractFailed
    case Anchor(href) =>
      if href.None? || href.value == [] then NoUrl
      else if card.title.None? || card.description.None? then ExtractFailed
      else Extracted(ProjectInfo(card.title.value, card.description.value, href.value))
  }

  // --------------------------------------------------------- accumulator

  /** The run's project list together with the process-wide set of URLs
      already parsed. */
  datatype Accumulator = Accumulator(projects: seq<ProjectInfo>, parsedUrls: set<string>)

  /** URLs are unique and `parsedUrls` is exactly the set of listed URLs. */
  predicate Valid(acc: Accumulator) {
    UniqueUrls(acc.projects) && acc.parsedUrls == UrlSet(acc.projects)
  }

  /** One iteration of the card loop of `parseCurrentPage`: a project with
      a URL not parsed before is appended and its URL recorded; a card
      without a URL, a card whose extraction throws and a card already seen
      change nothing. */
  function AddCard(acc: Accumulator, card: CardView): Accumulator {
    var e := ExtractProjectInfo(card);
    if e.Extracted? && e.project.url !in acc.parsedUrls then
      Accumulator(acc.projects + [e.project], acc.parsedUrls + {e.project.url})
    else acc
  }

  lemma AddCardKeepsValid(acc: Accumulator, card: CardView)
    requires Valid(acc)
    ensures Valid(AddCard(acc, card))
  {
    var e := ExtractProjectInfo(card);
    if e.Extracted? && e.project.url !in acc.parsedUrls {
      AppendFresh(acc.projects, e.project);
    }
  }

  /** `parseCurrentPage`: every card in order. The list only grows at its
      end and the URL set only grows; a pass that adds no project changes
      nothing. */
  function ParsePass(acc: Accumulator, cards: seq<CardView>): (r: Accumulator)
    ensures |acc.projects| <= |r.projects|
    ensures forall i :: 0 <= i < |acc.projects| ==> r.projects[i] == acc.projects[i]
    ensures acc.parsedUrls <= r.parsedUrls
    ensures |r.projects| == |acc.projects| ==> r == acc
    decreases |cards|
  {
    if cards == [] then acc
    else ParsePass(AddCard(acc, cards[0]), cards[1..])
  }

  /** A pass keeps the list free of duplicate URLs and the URL set equal to
      the set of listed URLs. */
  lemma {:induction false} ParsePassKeepsValid(acc: Accumulator, cards: seq<CardView>)
    requires Valid(acc)
    ensures Valid(ParsePass(acc, cards))
    decreases |cards|
  {
    if cards != [] {
      AddCardKeepsValid(acc, cards[0]);
      ParsePassKeepsValid(AddCard(acc, cards[0]), cards[1..]);
    }
  }

  /** Every project a pass adds has a URL that was not parsed before. */
  lemma {:induction false} ParsePassAddsOnlyNewUrls(acc: Accumulator, cards: seq<CardView>)
    ensures forall i :: |acc.projects| <= i < |ParsePass(acc, cards).projects| ==>
              ParsePass(acc, cards).projects[i].url !in acc.parsedUrls
    decreases |cards|
  {
    if cards != [] {
      var next := AddCard(acc, cards[0]);
      ParsePassAddsOnlyNewUrls(next, cards[1..]);
      var r := ParsePass(next, cards[1..]);
      assert acc.parsedUrls <= next.parsedUrls;
      forall i | |acc.projects| <= i < |r.projects|
        ensures r.projects[i].url !in acc.parsedUrls
      {
        if i >= |next.projects| {
          assert |next.projects| <= i < |r.projects|;
          assert r.projects[i].url !in next.parsedUrls;
        } else {
          assert r.projects[i] == r.projects[..|next.projects|][i] == next.projects[i];
          var e := ExtractProjectInfo(cards[0]);
          assert next != acc;
          assert e.Extracted? && e.project.url !in acc.parsedUrls;
          assert next.projects == acc.projects + [e.project];
        }
      }
    }
  }

  /** The URL of every card that extracts to a project is in `urls`. */
  predicate CardUrlsIn(cards: seq<CardView>, urls: set<string>) {
    forall k :: 0 <= k < |cards| && ExtractProjectInfo(cards[k]).Extracted? ==>
      ExtractProjectInfo(cards[k]).project.url in urls
  }

  /** No extractable card is lost: after a pass, the URL of every card that
      extracts to a project has been parsed, whether this pass added it or
      it was there before. */
  lemma {:induction false} ParsePassCoversCards(acc: Accumulator, cards: seq<CardView>)
    ensures CardUrlsIn(cards, ParsePass(acc, cards).parsedUrls)
    decreases |cards|
  {
    if cards != [] {
      var next := AddCard(acc, cards[0]);
      ParsePassCoversCards(next, cards[1..]);
      assert forall k :: 1 <= k < |cards| ==> cards[1..][k - 1] == cards[k];
    }
  }

  /** `idx` picks, for each project a pass over `cards` adds to `acc`, a
      card that extracts to exactly that project, in strictly increasing
      card order. */
  predicate PicksNewItemsInOrder(acc: Accumulator, cards: seq<CardView>, idx: seq<nat>) {
    && |idx| == |ParsePass(acc, cards).projects| - |acc.projects|
    && (forall i :: 0 <= i < |idx| ==>
          idx[i] < |cards|
          && ExtractProjectInfo(cards[idx[i]]) == Extracted(ParsePass(acc, cards).projects[|acc.projects| + i]))
    && (forall i, j :: 0 <= i < j < |idx| ==> idx[i] < idx[j])
  }

  /** The projects a pass adds come from its cards in card order: there is
      a strictly increasing choice of cards, one per new project, each of
      which extracts to exactly that project. */
  lemma {:induction false} NewItemsFollowCardOrder(acc: Accumulator, cards: seq<CardView>)
    returns (idx: seq<nat>)
    ensures PicksNewItemsInOrder(acc, cards, idx)
    ensures forall i :: |acc.projects| <= i < |ParsePass(acc, cards).projects| ==>
              FromFirstCardWithUrl(cards, ParsePass(acc, cards).projects[i])
    decreases |cards|
  {
    if cards == [] {
      idx := [];
    } else {
      var rest := NewItemsFollowCardOrder(AddCard(acc, cards[0]), cards[1..]);
      idx := PrependCard(acc, cards, rest);
    }
    FirstCardWithUrlWins(acc, cards);
  }

  /** Whether `card` extracts to a project with URL `u`. */
  predicate HasUrl(card: CardView, u: string) {
    ExtractProjectInfo(card).Extracted? && ExtractProjectInfo(card).project.url == u
  }

  /** The first card, in page order, that extracts to a project with URL
      `u`. */
  function FirstCardWithUrl(cards: seq<CardView>, u: string): (k: Option<nat>)
    ensures k.Some? ==> k.value < |cards| && HasUrl(cards[k.value], u)
    ensures k.Some? ==> forall j :: 0 <= j < k.value ==> !HasUrl(cards[j], u)
    ensures k.None? <==> forall j :: 0 <= j < |cards| ==> !HasUrl(cards[j], u)
    decreases |cards|
  {
    if cards == [] then None
    else if HasUrl(cards[0], u) then Some(0)
    else
      var k := FirstCardWithUrl(cards[1..], u);
      assert forall j :: 1 <= j < |cards| ==> cards[1..][j - 1] == cards[j];
      match k
      case None => None
      case Some(k) => Some(k + 1)
  }

  /** `p` is the project of the first card that shows `p`'s URL. */
  predicate FromFirstCardWithUrl(cards: seq<CardView>, p: ProjectInfo) {
    var k := FirstCardWithUrl(cards, p.url);
    k.Some? && ExtractProjectInfo(cards[k.value]) == Extracted(p)
  }

  /** Of several cards with the same URL the first one wins: every project
      a pass adds is the project of the first card showing its URL, since
      the URL is recorded as parsed as soon as that card is handled. */
  lemma {:induction false} FirstCardWithUrlWins(acc: Accumulator, cards: seq<CardView>)
    ensures forall i :: |acc.projects| <= i < |ParsePass(acc, cards).projects| ==>
              FromFirstCardWithUrl(cards, ParsePass(acc, cards).projects[i])
    decreases |cards|
  {
    if cards != [] {
      var next := AddCard(acc, cards[0]);
      var r := ParsePass(acc, cards);
      assert r == ParsePass(next, cards[1..]);
      FirstCardWithUrlWins(next, cards[1..]);
      ParsePassAddsOnlyNewUrls(next, cards[1..]);
      forall i | |acc.projects| <= i < |r.projects|
        ensures FromFirstCardWithUrl(cards, r.projects[i])
      {
        if i < |next.projects| {
          FirstCardWins(acc, cards, i);
        } else {
          LaterCardWins(acc, cards, i);
        }
      }
    }
  }

  /** A project added by the first card is that card's. */
  lemma FirstCardWins(acc: Accumulator, cards: seq<CardView>, i: int)
    requires cards != [] && |acc.projects| <= i < |AddCard(acc, cards[0]).projects|
    ensures i < |ParsePass(acc, cards).projects|
    ensures FromFirstCardWithUrl(cards, ParsePass(acc, cards).projects[i])
  {
    var next := AddCard(acc, cards[0]);
    var e := ExtractProjectInfo(cards[0]);
    assert e.Extracted? && next.projects == acc.projects + [e.project];
    assert ParsePass(acc, cards) == ParsePass(next, cards[1..]);
    assert ParsePass(acc, cards).projects[i] == next.projects[i] == e.project;
    assert HasUrl(cards[0], e.project.url);
  }

  /** A project added by a later card is not shown by the first card, whose
      URL, if any, is parsed by then. */
  lemma LaterCardWins(acc: Accumulator, cards: seq<CardView>, i: int)
    requires cards != []
    requires var next := AddCard(acc, cards[0]);
             |next.projects| <= i < |ParsePass(next, cards[1..]).projects|
             && FromFirstCardWithUrl(cards[1..], ParsePass(next, cards[1..]).projects[i])
             && ParsePass(next, cards[1..]).projects[i].url !in next.parsedUrls
    ensures i < |ParsePass(acc, cards).projects|
    ensures FromFirstCardWithUrl(cards, ParsePass(acc, cards).projects[i])
  {
    var next := AddCard(acc, cards[0]);
    assert ParsePass(acc, cards) == ParsePass(next, cards[1..]);
    var p := ParsePass(next, cards[1..]).projects[i];
    AddCardParsesItsUrl(acc, cards[0], p.url);
    FirstCardWithUrlSkipsFirst(cards, p.url);
  }

  /** A card showing URL `u` leaves `u` parsed, whether it added it or
      found it parsed already. */
  lemma AddCardParsesItsUrl(acc: Accumulator, card: CardView, u: string)
    ensures HasUrl(card, u) ==> u in AddCard(acc, card).parsedUrls
  {
  }

  /** When the first card does not show `u`, the first card that does is
      the first one among the rest, one place to the right. */
  lemma FirstCardWithUrlSkipsFirst(cards: seq<CardView>, u: string)
    requires cards != [] && !HasUrl(cards[0], u) && FirstCardWithUrl(cards[1..], u).Some?
    ensures var k := FirstCardWithUrl(cards[1..], u).value;
            && FirstCardWithUrl(cards, u) == Some(k + 1)
            && cards[k + 1] == cards[1..][k]
  {
  }

  /** The picks of a pass are those of the pass over the remaining cards,
      moved one card to the right, preceded by the first card when that
      card added a project. */
  lemma PrependCard(acc: Accumulator, cards: seq<CardView>, rest: seq<nat>) returns (idx: seq<nat>)
    requires cards != []
    requires PicksNewItemsInOrder(AddCard(acc, cards[0]), cards[1..], rest)
    ensures PicksNewItemsInOrder(acc, cards, idx)
  {
    var next := AddCard(acc, cards[0]);
    assert ParsePass(next, cards[1..]) == ParsePass(acc, cards);
    if next == acc {
      idx := Shift(rest);
      SkippedCardPicks(acc, cards, rest);
    } else {
      idx := [0] + Shift(rest);
      AddedCardPicks(acc, cards, rest);
    }
  }

  /** A first card that adds nothing is never picked. */
  lemma SkippedCardPicks(acc: Accumulator, cards: seq<CardView>, rest: seq<nat>)
    requires cards != [] && AddCard(acc, cards[0]) == acc
    requires PicksNewItemsInOrder(acc, cards[1..], rest)
    ensures PicksNewItemsInOrder(acc, cards, Shift(rest))
  {
    var r := ParsePass(acc, cards);
    assert r == ParsePass(acc, cards[1..]);
    var idx := Shift(rest);
    forall i | 0 <= i < |idx|
      ensures idx[i] < |cards|
      ensures ExtractProjectInfo(cards[idx[i]]) == Extracted(r.projects[|acc.projects| + i])
    {
      assert cards[idx[i]] == cards[1..][rest[i]];
    }
  }

  /** A first card that adds a project is picked for it. */
  lemma AddedCardPicks(acc: Accumulator, cards: seq<CardView>, rest: seq<nat>)
    requires cards != [] && AddCard(acc, cards[0]) != acc
    requires PicksNewItemsInOrder(AddCard(acc, cards[0]), cards[1..], rest)
    ensures PicksNewItemsInOrder(acc, cards, [0] + Shift(rest))
  {
    FirstCardPick(acc, cards);
    var idx := [0] + Shift(rest);
    PrependZeroKeepsOrder(rest);
    assert |idx| == |ParsePass(acc, cards).projects| - |acc.projects|;
    forall i | 1 <= i < |idx|
      ensures idx[i] < |cards|
      ensures ExtractProjectInfo(cards[idx[i]]) == Extracted(ParsePass(acc, cards).projects[|acc.projects| + i])
    {
      LaterCardPick(acc, cards, rest, i - 1);
      assert idx[i] == rest[i - 1] + 1;
    }
  }

  /** A first card that adds a project adds it in front of everything the
      rest of the pass adds. */
  lemma FirstCardPick(acc: Accumulator, cards: seq<CardView>)
    requires cards != [] && AddCard(acc, cards[0]) != acc
    ensures |AddCard(acc, cards[0]).projects| == |acc.projects| + 1
    ensures ParsePass(acc, cards) == ParsePass(AddCard(acc, cards[0]), cards[1..])
    ensures |acc.projects| < |ParsePass(acc, cards).projects|
    ensures ExtractProjectInfo(cards[0]) == Extracted(ParsePass(acc, cards).projects[|acc.projects|])
  {
    var next := AddCard(acc, cards[0]);
    var e := ExtractProjectInfo(cards[0]);
    assert e.Extracted? && next.projects == acc.projects + [e.project];
    assert ParsePass(acc, cards).projects[|acc.projects|] == next.projects[|acc.projects|];
  }

  /** The pick for the `i`-th project of the rest of the pass, moved one
      card to the right, is the pick for the project after it. */
  lemma LaterCardPick(acc: Accumulator, cards: seq<CardView>, rest: seq<nat>, i: nat)
    requires cards != [] && AddCard(acc, cards[0]) != acc
    requires PicksNewItemsInOrder(AddCard(acc, cards[0]), cards[1..], rest)
    requires i < |rest|
    ensures rest[i] + 1 < |cards|
    ensures ExtractProjectInfo(cards[rest[i] + 1]) == Extracted(ParsePass(acc, cards).projects[|acc.projects| + i + 1])
  {
    var next := AddCard(acc, cards[0]);
    assert ParsePass(acc, cards) == ParsePass(next, cards[1..]);
    assert |next.projects| == |acc.projects| + 1;
    assert cards[rest[i] + 1] == cards[1..][rest[i]];
  }

  /** Card 0 followed by increasing picks moved one card to the right is
      still increasing. */
  lemma PrependZeroKeepsOrder(rest: seq<nat>)
    requires forall i, j :: 0 <= i < j < |rest| ==> rest[i] < rest[j]
    ensures forall i, j :: 0 <= i < j < |[0] + Shift(rest)| ==> ([0] + Shift(rest))[i] < ([0] + Shift(rest))[j]
  {
    var idx := [0] + Shift(rest);
    forall i, j | 0 <= i < j < |idx|
      ensures idx[i] < idx[j]
    {
      assert idx[j] == rest[j - 1] + 1;
      if i > 0 {
        assert idx[i] == rest[i - 1] + 1;
      }
    }
  }

  /** Every index moved one card to the right. */
  function Shift(idx: seq<nat>): (r: seq<nat>)
    ensures |r| == |idx| && forall i :: 0 <= i < |idx| ==> r[i] == idx[i] + 1
  {
    if idx == [] then [] else [idx[0] + 1] + Shift(idx[1..])
  }

  // ------------------------------------------------------- bounded retry

  /** The browser's answer for (page counter, attempt): the cards a pass
      enumerates, or `None` when enumerating them throws. */
  type CardOracle = (int, nat) -> Option<seq<CardView>>

  datatype PageOutcome = Found | Exhausted | Aborted

  /** `attempts` passes were made on the page and the page was reloaded
      `refreshes` times. */
  datatype RetryResult = RetryResult(acc: Accumulator, outcome: PageOutcome, attempts: nat, refreshes: nat)

  /** An attempt whose pass runs and adds nothing. */
  predicate Unproductive(acc: Accumulator, view: Option<seq<CardView>>) {
    view.Some? && ParsePass(acc, view.value) == acc
  }

  /** Every attempt from `lo` up to, not including, `hi` ran its pass and
      added nothing. */
  predicate UnproductiveAttempts(acc: Accumulator, page: int, cards: CardOracle, lo: int, hi: int) {
    forall a :: lo <= a < hi ==> Unproductive(acc, ViewAt(cards, page, a))
  }

  /** The cards of attempt `a` on `page`; no attempt has a negative index. */
  function ViewAt(cards: CardOracle, page: int, a: int): Option<seq<CardView>> {
    if a < 0 then None else cards(page, a)
  }

  /** The retry loop from attempt `done` on: parse, stop at the first pass
      that adds a project, reload between attempts but not after the last. */
  function RetryFrom(acc: Accumulator, page: int, cards: CardOracle, maxRetries: int, done: nat)
    : (r: RetryResult)
    ensures done <= r.attempts <= (if done < maxRetries then maxRetries else done)
    ensures r.refreshes == (if r.attempts > done then r.attempts - done - 1 else 0)
    ensures r.outcome == Found ==>
              && r.attempts > done
              && ViewAt(cards, page, r.attempts - 1).Some?
              && r.acc == ParsePass(acc, ViewAt(cards, page, r.attempts - 1).value)
              && |r.acc.projects| > |acc.projects|
    ensures r.outcome == Exhausted ==>
              r.acc == acc && r.attempts == (if done < maxRetries then maxRetries else done)
    ensures r.outcome == Aborted ==>
              r.acc == acc && r.attempts > done && ViewAt(cards, page, r.attempts - 1).None?
    ensures UnproductiveAttempts(acc, page, cards, done, r.attempts - 1)
    ensures r.outcome == Exhausted ==> UnproductiveAttempts(acc, page, cards, done, r.attempts)
    decreases maxRetries - done
  {
    if done >= maxRetries then RetryResult(acc, Exhausted, done, 0)
    else
      match cards(page, done)
      case None => RetryResult(acc, Aborted, done + 1, 0)
      case Some(view) =>
        var after := ParsePass(acc, view);
        if |after.projects| > |acc.projects| then
          assert ViewAt(cards, page, done) == Some(view);
          RetryResult(after, Found, done + 1, 0)
        else
          assert after == acc && Unproductive(acc, ViewAt(cards, page, done));
          var rest := RetryFrom(acc, page, cards, maxRetries, done + 1);
          var reloads := if done + 1 < maxRetries then 1 else 0;
          assert rest.attempts > done + 1 ==> reloads == 1;
          RetryResult(rest.acc, rest.outcome, rest.attempts, rest.refreshes + reloads)
  }

  /** Every attempt before the last one made added nothing, and on
      exhaustion the last one added nothing either: the loop stops at the
      first attempt that adds a project. */
  lemma {:induction false} EarlierAttemptsAddNothing(acc: Accumulator, page: int, cards: CardOracle,
                                                     maxRetries: int, done: nat, a: int)
    requires var r := RetryFrom(acc, page, cards, maxRetries, done);
             done <= a && (a < r.attempts - 1 || (r.outcome == Exhausted && a < r.attempts))
    ensures Unproductive(acc, ViewAt(cards, page, a))
    decreases maxRetries - done
  {
    assert done < maxRetries && Unproductive(acc, ViewAt(cards, page, done));
    RetrySkipsUnproductive(acc, page, cards, maxRetries, done);
    if a > done {
      EarlierAttemptsAddNothing(acc, page, cards, maxRetries, done + 1, a);
    }
  }

  /** An attempt that adds nothing hands over to the next one unchanged. */
  lemma RetrySkipsUnproductive(acc: Accumulator, page: int, cards: CardOracle, maxRetries: int, done: nat)
    requires done < maxRetries && Unproductive(acc, ViewAt(cards, page, done))
    ensures RetryFrom(acc, page, cards, maxRetries, done).attempts
            == RetryFrom(acc, page, cards, maxRetries, done + 1).attempts
    ensures RetryFrom(acc, page, cards, maxRetries, done).outcome
            == RetryFrom(acc, page, cards, maxRetries, done + 1).outcome
  {
  }

  /** `parseCurrentPageWithRetry`: at most `maxRetries` attempts and one
      reload fewer; it reports success exactly when an attempt added a
      project, and that attempt is the last one made. Otherwise nothing was
      added. */
  function ParseCurrentPageWithRetry(acc: Accumulator, page: int, cards: CardOracle, maxRetries: int)
    : (r: RetryResult)
    ensures r.attempts <= (if maxRetries < 0 then 0 else maxRetries)
    ensures r.refreshes == (if r.attempts == 0 then 0 else r.attempts - 1)
    ensures maxRetries > 0 ==> r.refreshes < maxRetries
    ensures r.outcome == Found <==> |r.acc.projects| > |acc.projects|
    ensures r.outcome == Found ==>
              && r.attempts >= 1
              && ViewAt(cards, page, r.attempts - 1).Some?
              && r.acc == ParsePass(acc, ViewAt(cards, page, r.attempts - 1).value)
    ensures r.outcome != Found ==> r.acc == acc
    ensures acc.parsedUrls <= r.acc.parsedUrls
    ensures r.outcome == Exhausted ==> r.attempts == (if maxRetries < 0 then 0 else maxRetries)
    ensures r.outcome == Aborted ==> r.attempts >= 1 && ViewAt(cards, page, r.attempts - 1).None?
    ensures Valid(acc) ==> Valid(r.acc)
  {
    var r := RetryFrom(acc, page, cards, maxRetries, 0);
    if r.outcome == Found && Valid(acc) then
      ParsePassKeepsValid(acc, ViewAt(cards, page, r.attempts - 1).value);
      r
    else r
  }

  /** The retry loop stops at the first attempt that adds a project: every
      attempt before the last one made added nothing, and when the attempts
      run out none of them added anything. */
  lemma RetryStopsAtFirstProductiveAttempt(acc: Accumulator, page: int, cards: CardOracle,
                                           maxRetries: int)
    ensures var r := ParseCurrentPageWithRetry(acc, page, cards, maxRetries);
            && (forall a :: 0 <= a < r.attempts - 1 ==> Unproductive(acc, ViewAt(cards, page, a)))
            && (r.outcome == Exhausted ==>
                  forall a :: 0 <= a < r.attempts ==> Unproductive(acc, ViewAt(cards, page, a)))
  {
    var r := ParseCurrentPageWithRetry(acc, page, cards, maxRetries);
    forall a | 0 <= a && (a < r.attempts - 1 || (r.outcome == Exhausted && a < r.attempts))
      ensures Unproductive(acc, ViewAt(cards, page, a))
    {
      EarlierAttemptsAddNothing(acc, page, cards, maxRetries, 0, a);
    }
  }

  // ---------------------------------------------------------- pagination

  /** `isDisplayed()` and `isEnabled()` of a control. */
  datatype Control = Control(displayed: bool, enabled: bool)

  /** A numbered page control and its `data-page-num`. */
  datatype PageLink = PageLink(pageNum: int, control: Control)

  /** A "next" button; `disabled` is its `t-disabled` class. */
  datatype NextButton = NextButton(disabled: bool, control: Control)

  /** The pagination controls in document order, and whether the scripted
      scroll-and-click goes through without throwing. */
  datatype PaginationView = PaginationView(pageLinks: seq<PageLink>, nextButtons: seq<NextButton>,
                                           clickSucceeds: bool)

  /** The position of the first numbered control for page `num`, in
      document order. */
  function FirstPageLink(links: seq<PageLink>, num: int): (r: Option<nat>)
    ensures r.Some? ==> r.value < |links| && links[r.value].pageNum == num
    ensures r.Some? ==> forall j :: 0 <= j < r.value ==> links[j].pageNum != num
    ensures r.None? <==> forall i :: 0 <= i < |links| ==> links[i].pageNum != num
  {
    if links == [] then None
    else if links[0].pageNum == num then Some(0)
    else
      var r := FirstPageLink(links[1..], num);
      assert forall i :: 1 <= i < |links| ==> links[1..][i - 1] == links[i];
      match r
      case None => None
      case Some(i) => Some(i + 1)
  }

  /** The position of the first "next" button without the disabled class,
      in document order. */
  function FirstEnabledNext(buttons: seq<NextButton>): (r: Option<nat>)
    ensures r.Some? ==> r.value < |buttons| && !buttons[r.value].disabled
    ensures r.Some? ==> forall j :: 0 <= j < r.value ==> buttons[j].disabled
    ensures r.None? <==> forall i :: 0 <= i < |buttons| ==> buttons[i].disabled
  {
    if buttons == [] then None
    else if !buttons[0].disabled then Some(0)
    else
      var r := FirstEnabledNext(buttons[1..]);
      assert forall i :: 1 <= i < |buttons| ==> buttons[1..][i - 1] == buttons[i];
      match r
      case None => None
      case Some(i) => Some(i + 1)
  }

  predicate Usable(c: Control) {
    c.displayed && c.enabled
  }

  /** The control `navigateToNextPage` clicks from page counter `page`. */
  function ChosenControl(page: int, view: PaginationView): Option<Control> {
    match FirstPageLink(view.pageLinks, page + 1)
    case Some(i) => Some(view.pageLinks[i].control)
    case None =>
      match FirstEnabledNext(view.nextButtons)
      case Some(i) => Some(view.nextButtons[i].control)
      case None => None
  }

  /** `navigateToNextPage` from page counter `page`. */
  function NavigateToNextPage(page: int, view: PaginationView): bool {
    if view.pageLinks == [] && view.nextButtons == [] then false
    else
      match ChosenControl(page, view)
      case None => false
      case Some(c) => Usable(c) && view.clickSucceeds
  }

  /** Navigation fails when there is no pagination at all. Otherwise the
      first numbered control for `page + 1` is used when one exists, else
      the first "next" button without the disabled class; navigation
      succeeds exactly when that control is displayed and enabled and the
      click goes through. */
  lemma NavigationPreference(page: int, view: PaginationView)
    ensures view.pageLinks == [] && view.nextButtons == [] ==> !NavigateToNextPage(page, view)
    ensures forall i :: 0 <= i < |view.pageLinks| && view.pageLinks[i].pageNum == page + 1
              && (forall j :: 0 <= j < i ==> view.pageLinks[j].pageNum != page + 1)
              ==> (NavigateToNextPage(page, view)
                   <==> Usable(view.pageLinks[i].control) && view.clickSucceeds)
    ensures (forall i :: 0 <= i < |view.pageLinks| ==> view.pageLinks[i].pageNum != page + 1) ==>
              forall i :: 0 <= i < |view.nextButtons| && !view.nextButtons[i].disabled
                && (forall j :: 0 <= j < i ==> view.nextButtons[j].disabled)
                ==> (NavigateToNextPage(page, view)
                     <==> Usable(view.nextButtons[i].control) && view.clickSucceeds)
    ensures (forall i :: 0 <= i < |view.pageLinks| ==> view.pageLinks[i].pageNum != page + 1)
            && (forall i :: 0 <= i < |view.nextButtons| ==> view.nextButtons[i].disabled)
            ==> !NavigateToNextPage(page, view)
  {
    var link := FirstPageLink(view.pageLinks, page + 1);
    var next := FirstEnabledNext(view.nextButtons);
    forall i | 0 <= i < |view.pageLinks| && view.pageLinks[i].pageNum == page + 1
                 && (forall j :: 0 <= j < i ==> view.pageLinks[j].pageNum != page + 1)
      ensures NavigateToNextPage(page, view) <==> Usable(view.pageLinks[i].control) && view.clickSucceeds
    {
      assert link == Some(i);
    }
    if link.None? {
      forall i | 0 <= i < |view.nextButtons| && !view.nextButtons[i].disabled
                   && (forall j :: 0 <= j < i ==> view.nextButtons[j].disabled)
        ensures NavigateToNextPage(page, view) <==> Usable(view.nextButtons[i].control) && view.clickSucceeds
      {
        assert next == Some(i);
      }
    }
  }

  // ----------------------------------------------------------------- run

  /** The browser as seen by one run: whether opening the listing, entering
      its frame and waiting for the first card succeed, the cards of each
      (page, attempt), and the pagination of each page. */
  datatype Site = Site(initSucceeds: bool, cards: CardOracle, pagination: int -> PaginationView)

  /** The process-wide scraper fields `parsedUrls` and `currentPageNumber`. */
  datatype Statics = Statics(parsedUrls: set<string>, currentPage: int)

  datatype StopReason = InitFailed | ParseAborted | RetriesExhausted | NoNextPage | PageLimit

  /** What `parseAllProjects` returns, the statics it leaves behind, whether
      the driver is back in the top-level document, why the page loop
      stopped and how many pages it parsed. */
  datatype RunResult = RunResult(projects: seq<ProjectInfo>, statics: Statics, inDefaultContent: bool,
                                 reason: StopReason, pagesParsed: nat)

  /** `initializeParsingSession`, state part: whatever an earlier run left,
      the URL set is emptied and the page counter is back at 1. */
  function InitializeParsingSession(before: Statics): (s: Statics)
    ensures s.parsedUrls == {} && s.currentPage == 1
  {
    Statics({}, 1)
  }

  /** Navigation succeeded from every page counter in `[lo, hi)`. */
  predicate NavigatedThrough(site: Site, lo: int, hi: int)
    decreases hi - lo
  {
    lo >= hi || (NavigateToNextPage(lo, site.pagination(lo)) && NavigatedThrough(site, lo + 1, hi))
  }

  /** `NavigatedThrough` holds exactly when every page counter in the range
      navigated successfully. */
  lemma {:induction false} NavigatedThroughEach(site: Site, lo: int, hi: int, p: int)
    ensures NavigatedThrough(site, lo, hi) && lo <= p < hi ==> NavigateToNextPage(p, site.pagination(p))
    ensures (forall q :: lo <= q < hi ==> NavigateToNextPage(q, site.pagination(q)))
            ==> NavigatedThrough(site, lo, hi)
    decreases hi - lo
  {
    if lo < hi {
      NavigatedThroughEach(site, lo + 1, hi, p);
    }
  }

  /** The accumulator the page loop, started on page `lo` with `acc`, holds
      on reaching page `hi`: each page before it parsed, with retries, in
      turn. */
  function EnteringAcc(acc: Accumulator, lo: int, hi: int, site: Site): Accumulator
    decreases hi - lo
  {
    if lo >= hi then acc
    else EnteringAcc(ParseCurrentPageWithRetry(acc, lo, site.cards, MAX_RETRIES).acc, lo + 1, hi, site)
  }

  /** Every page in `[lo, hi)`, entered with what the pages before it
      gathered, was parsed by a pass that added a project and then left by
      a successful navigation. */
  predicate PassedPages(acc: Accumulator, lo: int, hi: int, site: Site)
    decreases hi - lo
  {
    lo >= hi
    || (var at := ParseCurrentPageWithRetry(acc, lo, site.cards, MAX_RETRIES);
        && at.outcome == Found
        && NavigateToNextPage(lo, site.pagination(lo))
        && PassedPages(at.acc, lo + 1, hi, site))
  }

  /** Each page of a passed range, on its own: its parse added a project to
      what the earlier pages gathered, and navigation from it succeeded. */
  lemma {:induction false} PassedPagesEach(acc: Accumulator, lo: int, hi: int, site: Site, p: int)
    requires PassedPages(acc, lo, hi, site) && lo <= p < hi
    ensures var entering := EnteringAcc(acc, lo, p, site);
            var at := ParseCurrentPageWithRetry(entering, p, site.cards, MAX_RETRIES);
            && at.outcome == Found
            && |at.acc.projects| > |entering.projects|
            && NavigateToNextPage(p, site.pagination(p))
    decreases hi - lo
  {
    PassedFirstPage(acc, lo, hi, site);
    if p > lo {
      EnteringAccStep(acc, lo, p, site);
      PassedPagesEach(ParseCurrentPageWithRetry(acc, lo, site.cards, MAX_RETRIES).acc, lo + 1, hi, site, p);
    }
  }

  /** The first page of a passed range was parsed with success and left,
      and the rest of the range was passed after it. */
  lemma PassedFirstPage(acc: Accumulator, lo: int, hi: int, site: Site)
    requires PassedPages(acc, lo, hi, site) && lo < hi
    ensures var at := ParseCurrentPageWithRetry(acc, lo, site.cards, MAX_RETRIES);
            && at.outcome == Found
            && |at.acc.projects| > |acc.projects|
            && NavigateToNextPage(lo, site.pagination(lo))
            && PassedPages(at.acc, lo + 1, hi, site)
  {
  }

  /** The page loop from page counter `page`: it keeps URLs unique and the
      URL set in step with the list, only appends, and moves the counter
      only past pages whose navigation succeeded. */
  function PageLoop(acc: Accumulator, page: int, site: Site): (r: RunResult)
    requires 1 <= page <= MAX_PAGES + 1
    requires Valid(acc)
    ensures UniqueUrls(r.projects) && r.statics.parsedUrls == UrlSet(r.projects)
    ensures |acc.projects| <= |r.projects|
    ensures forall i :: 0 <= i < |acc.projects| ==> r.projects[i] == acc.projects[i]
    ensures acc.parsedUrls <= r.statics.parsedUrls
    ensures page <= r.statics.currentPage <= MAX_PAGES + 1
    ensures NavigatedThrough(site, page, r.statics.currentPage)
    ensures r.reason == PageLimit <==> r.statics.currentPage == MAX_PAGES + 1
    ensures r.pagesParsed == (if r.reason == PageLimit then MAX_PAGES else r.statics.currentPage)
    ensures r.reason == NoNextPage ==>
              !NavigateToNextPage(r.statics.currentPage, site.pagination(r.statics.currentPage))
    ensures r.reason != InitFailed && r.inDefaultContent
    decreases MAX_PAGES + 1 - page
  {
    if page > MAX_PAGES then
      RunResult(acc.projects, Statics(acc.parsedUrls, page), true, PageLimit, MAX_PAGES)
    else
      var attempt := ParseCurrentPageWithRetry(acc, page, site.cards, MAX_RETRIES);
      if attempt.outcome == Found && NavigateToNextPage(page, site.pagination(page)) then
        PageLoop(attempt.acc, page + 1, site)
      else
        RunResult(attempt.acc.projects, Statics(attempt.acc.parsedUrls, page), true,
                  StopReasonOf(attempt.outcome), page)
  }

  /** Why the loop stops on a page whose parse ended with `o`: a parse that
      found projects stops only when navigation fails. */
  function StopReasonOf(o: PageOutcome): StopReason {
    match o
    case Aborted => ParseAborted
    case Exhausted => RetriesExhausted
    case Found => NoNextPage
  }

  /** What the page loop did, page by page: it moved past a page only after
      that page's parse added a project and navigation from it succeeded,
      and it stopped on the page it reached for that page's own reason:
      the parse aborted, the retries ran out, or the parse added a project
      but navigation failed; or on the page limit. It returns what the
      pages before gathered, plus that page's projects when navigation
      was what failed. */
  lemma {:induction false} PageLoopHistory(acc: Accumulator, page: int, site: Site)
    requires 1 <= page <= MAX_PAGES + 1 && Valid(acc)
    ensures PassedPages(acc, page, PageLoop(acc, page, site).statics.currentPage, site)
    ensures StopsAsRecorded(acc, page, site)
    decreases MAX_PAGES + 1 - page, 2
  {
    if page <= MAX_PAGES {
      PageLoopHistoryFrom(acc, page, site);
    } else {
      PageLoopHistoryLimit(acc, page, site);
    }
  }

  /** How the page loop started on page `page` with `acc` stopped: on the
      page it reached, for that page's reason, returning what the pages
      before gathered plus that page's projects when navigation failed. */
  predicate StopsAsRecorded(acc: Accumulator, page: int, site: Site)
    requires 1 <= page <= MAX_PAGES + 1 && Valid(acc)
  {
    var r := PageLoop(acc, page, site);
    var cur := r.statics.currentPage;
    var last := EnteringAcc(acc, page, cur, site);
    var at := ParseCurrentPageWithRetry(last, cur, site.cards, MAX_RETRIES);
    && (r.reason == ParseAborted <==> cur <= MAX_PAGES && at.outcome == Aborted)
    && (r.reason == RetriesExhausted <==> cur <= MAX_PAGES && at.outcome == Exhausted)
    && (r.reason == NoNextPage <==>
          cur <= MAX_PAGES && at.outcome == Found && !NavigateToNextPage(cur, site.pagination(cur)))
    && Accumulator(r.projects, r.statics.parsedUrls) == (if r.reason == NoNextPage then at.acc else last)
  }

  /** At the page limit the loop stops at once, having passed no page. */
  lemma PageLoopHistoryLimit(acc: Accumulator, page: int, site: Site)
    requires page == MAX_PAGES + 1 && Valid(acc)
    ensures PassedPages(acc, page, PageLoop(acc, page, site).statics.currentPage, site)
    ensures StopsAsRecorded(acc, page, site)
  {
  }

  /** The history of the loop from a page within the limit: that page is
      either passed or the one the loop stops on. */
  lemma {:induction false} PageLoopHistoryFrom(acc: Accumulator, page: int, site: Site)
    requires 1 <= page <= MAX_PAGES && Valid(acc)
    ensures PassedPages(acc, page, PageLoop(acc, page, site).statics.currentPage, site)
    ensures StopsAsRecorded(acc, page, site)
    decreases MAX_PAGES + 1 - page, 1
  {
    var at := ParseCurrentPageWithRetry(acc, page, site.cards, MAX_RETRIES);
    if at.outcome == Found && NavigateToNextPage(page, site.pagination(page)) {
      PageLoopHistoryGo(acc, page, site);
    } else {
      PageLoopHistoryStop(acc, page, site);
    }
  }

  /** A page the loop stops on is the last page of its history. */
  lemma PageLoopHistoryStop(acc: Accumulator, page: int, site: Site)
    requires 1 <= page <= MAX_PAGES && Valid(acc)
    requires var at := ParseCurrentPageWithRetry(acc, page, site.cards, MAX_RETRIES);
             !(at.outcome == Found && NavigateToNextPage(page, site.pagination(page)))
    ensures PassedPages(acc, page, PageLoop(acc, page, site).statics.currentPage, site)
    ensures StopsAsRecorded(acc, page, site)
  {
    PageLoopStep(acc, page, site);
  }

  /** A page the loop moves past heads the history of the rest of the loop. */
  lemma {:induction false} PageLoopHistoryGo(acc: Accumulator, page: int, site: Site)
    requires 1 <= page <= MAX_PAGES && Valid(acc)
    requires var at := ParseCurrentPageWithRetry(acc, page, site.cards, MAX_RETRIES);
             at.outcome == Found && NavigateToNextPage(page, site.pagination(page))
    ensures PassedPages(acc, page, PageLoop(acc, page, site).statics.currentPage, site)
    ensures StopsAsRecorded(acc, page, site)
    decreases MAX_PAGES + 1 - page, 0
  {
    PageLoopStep(acc, page, site);
    var at := ParseCurrentPageWithRetry(acc, page, site.cards, MAX_RETRIES);
    PageLoopHistory(at.acc, page + 1, site);
    var cur := PageLoop(acc, page, site).statics.currentPage;
    EnteringAccStep(acc, page, cur, site);
  }

  /** `parseAllProjects`: reset the statics, open the listing, then parse
      page after page. The result never repeats a URL and the URL set
      matches it; the page counter only moves past pages whose navigation
      succeeded; a failed start gives nothing; the driver always ends in
      the top-level document. */
  function ParseAllProjects(before: Statics, site: Site): (r: RunResult)
    ensures UniqueUrls(r.projects) && r.statics.parsedUrls == UrlSet(r.projects)
    ensures 1 <= r.statics.currentPage <= MAX_PAGES + 1
    ensures NavigatedThrough(site, 1, r.statics.currentPage)
    ensures r.pagesParsed <= MAX_PAGES
    ensures r.reason == PageLimit <==> r.statics.currentPage == MAX_PAGES + 1
    ensures r.reason == InitFailed <==> !site.initSucceeds
    ensures r.reason == InitFailed ==> r.projects == [] && r.statics == Statics({}, 1)
    ensures r.reason == ParseAborted || r.reason == RetriesExhausted ==>
              Accumulator(r.projects, r.statics.parsedUrls) == RunEntering(site, r.statics.currentPage)
    ensures r.inDefaultContent
  {
    var statics := InitializeParsingSession(before);
    if !site.initSucceeds then RunResult([], statics, true, InitFailed, 0)
    else
      PageLoopHistory(Accumulator([], {}), 1, site);
      PageLoop(Accumulator([], statics.parsedUrls), statics.currentPage, site)
  }

  /** What a run has gathered on reaching page `p`. */
  function RunEntering(site: Site, p: int): Accumulator {
    EnteringAcc(Accumulator([], {}), 1, p, site)
  }

  /** A run stops on the page it reached for that page's own reason. When
      the retries run out, every attempt on that page added nothing to what
      the earlier pages gathered. When a parse aborts, some attempt's card
      lookup threw after the attempts before it added nothing. In both
      cases the run returns what the earlier pages gathered. */
  lemma StopMatchesLastPage(before: Statics, site: Site)
    ensures var r := ParseAllProjects(before, site);
            var final := Accumulator(r.projects, r.statics.parsedUrls);
            var cur := r.statics.currentPage;
            && (r.reason == RetriesExhausted ==>
                  && final == RunEntering(site, cur)
                  && forall a :: 0 <= a < MAX_RETRIES ==> Unproductive(final, ViewAt(site.cards, cur, a)))
            && (r.reason == ParseAborted ==>
                  && final == RunEntering(site, cur)
                  && exists a :: 0 <= a < MAX_RETRIES && ViewAt(site.cards, cur, a).None?
                       && forall b :: 0 <= b < a ==> Unproductive(final, ViewAt(site.cards, cur, b)))
  {
    if site.initSucceeds {
      var r := ParseAllProjects(before, site);
      var cur := r.statics.currentPage;
      var last := RunEntering(site, cur);
      PageLoopHistory(Accumulator([], {}), 1, site);
      RetryStopsAtFirstProductiveAttempt(last, cur, site.cards, MAX_RETRIES);
      if r.reason == ParseAborted {
        var at := ParseCurrentPageWithRetry(last, cur, site.cards, MAX_RETRIES);
        assert ViewAt(site.cards, cur, at.attempts - 1).None?;
      }
    }
  }

  /** The page counter of a run moved past page `p` only after a parse of
      that page added a project to what the run had gathered, and
      navigation from it succeeded. */
  lemma RunPassedPagesWereFound(before: Statics, site: Site, p: int)
    ensures var r := ParseAllProjects(before, site);
            1 <= p < r.statics.currentPage ==>
              var at := ParseCurrentPageWithRetry(RunEntering(site, p), p, site.cards, MAX_RETRIES);
              && at.outcome == Found
              && |at.acc.projects| > |RunEntering(site, p).projects|
              && NavigateToNextPage(p, site.pagination(p))
  {
    var r := ParseAllProjects(before, site);
    if 1 <= p < r.statics.currentPage {
      PageLoopHistory(Accumulator([], {}), 1, site);
      PassedPagesEach(Accumulator([], {}), 1, r.statics.currentPage, site, p);
    }
  }

  /** The page counter of a run moved past exactly the pages whose
      navigation succeeded: it starts at 1 and each step up follows a
      successful navigation. */
  lemma RunCounterFollowsNavigation(before: Statics, site: Site)
    ensures var r := ParseAllProjects(before, site);
            forall p :: 1 <= p < r.statics.currentPage ==> NavigateToNextPage(p, site.pagination(p))
  {
    var r := ParseAllProjects(before, site);
    forall p | 1 <= p < r.statics.currentPage
      ensures NavigateToNextPage(p, site.pagination(p))
    {
      NavigatedThroughEach(site, 1, r.statics.currentPage, p);
    }
  }

  /** Runs do not interfere: what an earlier run left in the statics has no
      effect on the next one. */
  lemma RunsAreIndependent(before1: Statics, before2: Statics, site: Site)
    ensures ParseAllProjects(before1, site) == ParseAllProjects(before2, site)
  {
  }

  // ----------------------------------------------------------- provenance

  /** Some card of page `p`, in one of the attempts a page gets, extracts
      to exactly `x`. */
  predicate OnPage(site: Site, p: int, x: ProjectInfo) {
    exists a, k :: 0 <= a < MAX_RETRIES && ViewAt(site.cards, p, a).Some?
      && 0 <= k < |ViewAt(site.cards, p, a).value|
      && ExtractProjectInfo(ViewAt(site.cards, p, a).value[k]) == Extracted(x)
  }

  /** Some card of a page in `[lo, hi]` extracts to exactly `x`. */
  predicate ShownOnPages(site: Site, lo: int, hi: int, x: ProjectInfo) {
    exists p :: lo <= p <= hi && OnPage(site, p, x)
  }

  /** Every project a pass adds is what one of its cards extracts to. */
  lemma PassProvenance(acc: Accumulator, cards: seq<CardView>, i: int)
    requires |acc.projects| <= i < |ParsePass(acc, cards).projects|
    ensures exists k :: 0 <= k < |cards| && ExtractProjectInfo(cards[k]) == Extracted(ParsePass(acc, cards).projects[i])
  {
    var idx := NewItemsFollowCardOrder(acc, cards);
    var k := idx[i - |acc.projects|];
    assert ExtractProjectInfo(cards[k]) == Extracted(ParsePass(acc, cards).projects[i]);
  }

  /** Every project the retried parse of a page adds is shown by a card of
      that page. */
  lemma PageProvenance(acc: Accumulator, page: int, site: Site, i: int)
    requires |acc.projects| <= i < |ParseCurrentPageWithRetry(acc, page, site.cards, MAX_RETRIES).acc.projects|
    ensures OnPage(site, page, ParseCurrentPageWithRetry(acc, page, site.cards, MAX_RETRIES).acc.projects[i])
  {
    var at := ParseCurrentPageWithRetry(acc, page, site.cards, MAX_RETRIES);
    var a := at.attempts - 1;
    var view := ViewAt(site.cards, page, a).value;
    PassProvenance(acc, view, i);
    var k :| 0 <= k < |view| && ExtractProjectInfo(view[k]) == Extracted(at.acc.projects[i]);
    assert 0 <= a < MAX_RETRIES && ViewAt(site.cards, page, a).Some?;
  }

  /** One turn of the page loop: it moves on to the next page with what the
      page's parse gathered exactly when that parse added a project and
      navigation succeeded, and otherwise stops on this page with it. */
  lemma PageLoopStep(acc: Accumulator, page: int, site: Site)
    requires 1 <= page <= MAX_PAGES && Valid(acc)
    ensures var at := ParseCurrentPageWithRetry(acc, page, site.cards, MAX_RETRIES);
            && Valid(at.acc)
            && if at.outcome == Found && NavigateToNextPage(page, site.pagination(page)) then
                 PageLoop(acc, page, site) == PageLoop(at.acc, page + 1, site)
               else
                 PageLoop(acc, page, site)
                 == RunResult(at.acc.projects, Statics(at.acc.parsedUrls, page), true,
                              StopReasonOf(at.outcome), page)
  {
  }

  /** Every project the page loop adds is shown by a card of a page it
      reached. */
  lemma {:induction false} PageLoopProvenance(acc: Accumulator, page: int, site: Site, i: int)
    requires 1 <= page <= MAX_PAGES + 1 && Valid(acc)
    requires |acc.projects| <= i < |PageLoop(acc, page, site).projects|
    ensures ShownOnPages(site, page, PageLoop(acc, page, site).statics.currentPage,
                         PageLoop(acc, page, site).projects[i])
    decreases MAX_PAGES + 1 - page, 1
  {
    assert page <= MAX_PAGES;
    var at := ParseCurrentPageWithRetry(acc, page, site.cards, MAX_RETRIES);
    if i < |at.acc.projects| {
      ProvenanceHere(acc, page, site, i);
    } else {
      ProvenanceLater(acc, page, site, i);
    }
  }

  /** A project the first page's parse added was shown on that page. */
  lemma ProvenanceHere(acc: Accumulator, page: int, site: Site, i: int)
    requires 1 <= page <= MAX_PAGES && Valid(acc)
    requires |acc.projects| <= i < |PageLoop(acc, page, site).projects|
    requires i < |ParseCurrentPageWithRetry(acc, page, site.cards, MAX_RETRIES).acc.projects|
    ensures ShownOnPages(site, page, PageLoop(acc, page, site).statics.currentPage,
                         PageLoop(acc, page, site).projects[i])
  {
    var r := PageLoop(acc, page, site);
    PageLoopStep(acc, page, site);
    PageProvenance(acc, page, site, i);
    assert r.projects[i] == ParseCurrentPageWithRetry(acc, page, site.cards, MAX_RETRIES).acc.projects[i];
    assert OnPage(site, page, r.projects[i]);
  }

  /** A project added after the first page was shown on a later page. */
  lemma {:induction false} ProvenanceLater(acc: Accumulator, page: int, site: Site, i: int)
    requires 1 <= page <= MAX_PAGES && Valid(acc)
    requires |acc.projects| <= i < |PageLoop(acc, page, site).projects|
    requires |ParseCurrentPageWithRetry(acc, page, site.cards, MAX_RETRIES).acc.projects| <= i
    ensures ShownOnPages(site, page, PageLoop(acc, page, site).statics.currentPage,
                         PageLoop(acc, page, site).projects[i])
    decreases MAX_PAGES + 1 - page, 0
  {
    LaterProjectsMeanTheLoopWentOn(acc, page, site, i);
    var at := ParseCurrentPageWithRetry(acc, page, site.cards, MAX_RETRIES);
    PageLoopGoes(acc, page, site);
    PageLoopProvenance(at.acc, page + 1, site, i);
    ShownOnWiderRange(site, page, PageLoop(acc, page, site).statics.currentPage, PageLoop(acc, page, site).projects[i]);
  }

  /** A loop that returns more than its first page's parse gathered went on
      past that page. */
  lemma LaterProjectsMeanTheLoopWentOn(acc: Accumulator, page: int, site: Site, i: int)
    requires 1 <= page <= MAX_PAGES && Valid(acc)
    requires i < |PageLoop(acc, page, site).projects|
    requires |ParseCurrentPageWithRetry(acc, page, site.cards, MAX_RETRIES).acc.projects| <= i
    ensures var at := ParseCurrentPageWithRetry(acc, page, site.cards, MAX_RETRIES);
            at.outcome == Found && NavigateToNextPage(page, site.pagination(page))
  {
    PageLoopStep(acc, page, site);
  }

  /** A page the loop moves past hands what it gathered to the next page. */
  lemma PageLoopGoes(acc: Accumulator, page: int, site: Site)
    requires 1 <= page <= MAX_PAGES && Valid(acc)
    requires var at := ParseCurrentPageWithRetry(acc, page, site.cards, MAX_RETRIES);
             at.outcome == Found && NavigateToNextPage(page, site.pagination(page))
    ensures var at := ParseCurrentPageWithRetry(acc, page, site.cards, MAX_RETRIES);
            Valid(at.acc) && PageLoop(acc, page, site) == PageLoop(at.acc, page + 1, site)
  {
    PageLoopStep(acc, page, site);
  }

  /** What a later page showed, a range starting one page earlier showed. */
  lemma ShownOnWiderRange(site: Site, lo: int, hi: int, x: ProjectInfo)
    requires ShownOnPages(site, lo + 1, hi, x)
    ensures ShownOnPages(site, lo, hi, x)
  {
    var p :| lo + 1 <= p <= hi && OnPage(site, p, x);
  }

  /** Every project a run returns is shown by a card of a page the run
      reached. */
  lemma RunProvenance(before: Statics, site: Site)
    ensures var r := ParseAllProjects(before, site);
            forall i :: 0 <= i < |r.projects| ==> ShownOnPages(site, 1, r.statics.currentPage, r.projects[i])
  {
    if site.initSucceeds {
      var r := ParseAllProjects(before, site);
      assert r == PageLoop(Accumulator([], {}), 1, site);
      forall i | 0 <= i < |r.projects|
        ensures ShownOnPages(site, 1, r.statics.currentPage, r.projects[i])
      {
        PageLoopProvenance(Accumulator([], {}), 1, site, i);
      }
    } else {
      assert ParseAllProjects(before, site).projects == [];
    }
  }

  /** The page loop reaching page `p` is the page loop started there with
      what it had gathered. */
  lemma {:induction false} PageLoopFrom(acc: Accumulator, page: int, site: Site, p: int)
    requires 1 <= page <= MAX_PAGES + 1 && Valid(acc)
    requires page <= p <= PageLoop(acc, page, site).statics.currentPage
    ensures Valid(EnteringAcc(acc, page, p, site))
    ensures PageLoop(EnteringAcc(acc, page, p, site), p, site) == PageLoop(acc, page, site)
    decreases p - page, 1
  {
    if p > page {
      PageLoopFromLater(acc, page, site, p);
    } else {
      PageLoopFromHere(acc, page, site);
    }
  }

  /** The loop reaching the page it started on is the loop itself. */
  lemma PageLoopFromHere(acc: Accumulator, page: int, site: Site)
    requires 1 <= page <= MAX_PAGES + 1 && Valid(acc)
    ensures EnteringAcc(acc, page, page, site) == acc
  {
  }

  /** The loop reaching a page after `page` went on from `page`, and reached
      it from `page + 1`. */
  lemma {:induction false} PageLoopFromLater(acc: Accumulator, page: int, site: Site, p: int)
    requires 1 <= page <= MAX_PAGES + 1 && Valid(acc)
    requires page < p <= PageLoop(acc, page, site).statics.currentPage
    ensures Valid(EnteringAcc(acc, page, p, site))
    ensures PageLoop(EnteringAcc(acc, page, p, site), p, site) == PageLoop(acc, page, site)
    decreases p - page, 0
  {
    ReachingLaterMeansTheLoopWentOn(acc, page, site, p);
    PageLoopGoes(acc, page, site);
    var at := ParseCurrentPageWithRetry(acc, page, site.cards, MAX_RETRIES);
    EnteringAccStep(acc, page, p, site);
    PageLoopFrom(at.acc, page + 1, site, p);
  }

  /** Reaching `hi` from `lo` is parsing page `lo` and reaching `hi` from
      `lo + 1`. */
  lemma EnteringAccStep(acc: Accumulator, lo: int, hi: int, site: Site)
    requires lo < hi
    ensures EnteringAcc(acc, lo, hi, site)
            == EnteringAcc(ParseCurrentPageWithRetry(acc, lo, site.cards, MAX_RETRIES).acc, lo + 1, hi, site)
  {
  }

  /** A loop that stops on a page after `page` went on past `page`. */
  lemma ReachingLaterMeansTheLoopWentOn(acc: Accumulator, page: int, site: Site, p: int)
    requires 1 <= page <= MAX_PAGES + 1 && Valid(acc)
    requires page < p <= PageLoop(acc, page, site).statics.currentPage
    ensures page <= MAX_PAGES
    ensures var at := ParseCurrentPageWithRetry(acc, page, site.cards, MAX_RETRIES);
            at.outcome == Found && NavigateToNextPage(page, site.pagination(page))
  {
    PageLoopStep(acc, page, site);
  }

  /** Page `p`, entered with `entering`, was parsed by a pass that added
      projects, and the URL of every card of the attempt that did so is in
      `urls`. */
  predicate FoundAndCovered(entering: Accumulator, p: int, site: Site, urls: set<string>) {
    var at := ParseCurrentPageWithRetry(entering, p, site.cards, MAX_RETRIES);
    && at.outcome == Found
    && CardUrlsIn(ViewAt(site.cards, p, at.attempts - 1).value, urls)
  }

  /** The first page of the loop, when the loop moved past it or stopped on
      it for want of a next page, was parsed with success, and what that
      parse gathered is still in the loop's URL set. */
  lemma PageLoopFirstPageFound(acc: Accumulator, page: int, site: Site)
    requires 1 <= page <= MAX_PAGES && Valid(acc)
    requires var r := PageLoop(acc, page, site);
             page < r.statics.currentPage || r.reason == NoNextPage
    ensures var at := ParseCurrentPageWithRetry(acc, page, site.cards, MAX_RETRIES);
            && at.outcome == Found
            && at.acc.parsedUrls <= PageLoop(acc, page, site).statics.parsedUrls
  {
    PageLoopStep(acc, page, site);
  }

  /** ... and so every card of the attempt that added projects has its URL
      in the loop's URL set. */
  lemma PageLoopKeepsFirstPage(acc: Accumulator, page: int, site: Site)
    requires 1 <= page <= MAX_PAGES && Valid(acc)
    requires var r := PageLoop(acc, page, site);
             page < r.statics.currentPage || r.reason == NoNextPage
    ensures FoundAndCovered(acc, page, site, PageLoop(acc, page, site).statics.parsedUrls)
  {
    PageLoopFirstPageFound(acc, page, site);
    var at := ParseCurrentPageWithRetry(acc, page, site.cards, MAX_RETRIES);
    var view := ViewAt(site.cards, page, at.attempts - 1).value;
    ParsePassCoversCards(acc, view);
    CardUrlsInLarger(view, at.acc.parsedUrls, PageLoop(acc, page, site).statics.parsedUrls);
  }

  /** Page `p` of the loop started on `page`, when the loop moved past it or
      stopped on it for want of a next page: its parse added projects, and
      the URL of every card of the attempt that did so is in the loop's URL
      set. */
  lemma PageLoopCoversFoundPage(acc: Accumulator, page: int, site: Site, p: int)
    requires 1 <= page <= MAX_PAGES + 1 && Valid(acc)
    requires var r := PageLoop(acc, page, site);
             page <= p && (p < r.statics.currentPage || (p == r.statics.currentPage && r.reason == NoNextPage))
    ensures FoundAndCovered(EnteringAcc(acc, page, p, site), p, site, PageLoop(acc, page, site).statics.parsedUrls)
  {
    PageLoopFrom(acc, page, site, p);
    PageLoopKeepsFirstPage(EnteringAcc(acc, page, p, site), p, site);
  }

  /** Cards covered by a URL set are covered by any larger one. */
  lemma CardUrlsInLarger(cards: seq<CardView>, small: set<string>, large: set<string>)
    requires CardUrlsIn(cards, small) && small <= large
    ensures CardUrlsIn(cards, large)
  {
  }

  /** No card is lost from a page a run parsed with success (one it moved
      past, or the one where navigation failed): the URL of every card of
      the attempt that added projects is in the run's URL set. */
  lemma RunCoversFoundPages(before: Statics, site: Site, p: int)
    ensures var r := ParseAllProjects(before, site);
            var cur := r.statics.currentPage;
            site.initSucceeds && (1 <= p < cur || (p == cur && r.reason == NoNextPage)) ==>
              FoundAndCovered(RunEntering(site, p), p, site, r.statics.parsedUrls)
  {
    var r := ParseAllProjects(before, site);
    var cur := r.statics.currentPage;
    if site.initSucceeds && (1 <= p < cur || (p == cur && r.reason == NoNextPage)) {
      assert r == PageLoop(Accumulator([], {}), 1, site);
      PageLoopCoversFoundPage(Accumulator([], {}), 1, site, p);
    }
  }

  // ---------------------------------------------------------------- frame

  /** Two sites agree on what a run can look at: the start, the cards of
      attempts `0..MAX_RETRIES - 1` of pages `1..MAX_PAGES`, and those
      pages' pagination. */
  predicate AgreeOnFirstPages(s1: Site, s2: Site) {
    && s1.initSucceeds == s2.initSucceeds
    && (forall p, a :: 1 <= p <= MAX_PAGES && 0 <= a < MAX_RETRIES ==> s1.cards(p, a) == s2.cards(p, a))
    && (forall p :: 1 <= p <= MAX_PAGES ==> s1.pagination(p) == s2.pagination(p))
  }

  lemma {:induction false} RetryFromFrame(acc: Accumulator, page: int, c1: CardOracle, c2: CardOracle,
                                          done: nat)
    requires forall a :: done <= a < MAX_RETRIES ==> c1(page, a) == c2(page, a)
    ensures RetryFrom(acc, page, c1, MAX_RETRIES, done) == RetryFrom(acc, page, c2, MAX_RETRIES, done)
    decreases MAX_RETRIES - done
  {
    if done < MAX_RETRIES {
      RetryFromFrameStep(acc, page, c1, c2, done);
      RetryFromFrame(acc, page, c1, c2, done + 1);
    }
  }

  /** One attempt of the frame argument: with the same view of attempt
      `done`, the loops agree when the loops from the next attempt do. */
  lemma RetryFromFrameStep(acc: Accumulator, page: int, c1: CardOracle, c2: CardOracle, done: nat)
    requires done < MAX_RETRIES && c1(page, done) == c2(page, done)
    ensures RetryFrom(acc, page, c1, MAX_RETRIES, done + 1) == RetryFrom(acc, page, c2, MAX_RETRIES, done + 1)
            ==> RetryFrom(acc, page, c1, MAX_RETRIES, done) == RetryFrom(acc, page, c2, MAX_RETRIES, done)
  {
  }

  /** The two sites choose the same on page `page`: the same parse and the
      same navigation. */
  lemma PageChoiceFrame(acc: Accumulator, page: int, s1: Site, s2: Site)
    requires 1 <= page <= MAX_PAGES && AgreeOnFirstPages(s1, s2)
    ensures ParseCurrentPageWithRetry(acc, page, s1.cards, MAX_RETRIES)
            == ParseCurrentPageWithRetry(acc, page, s2.cards, MAX_RETRIES)
    ensures NavigateToNextPage(page, s1.pagination(page)) == NavigateToNextPage(page, s2.pagination(page))
  {
    RetryFromFrame(acc, page, s1.cards, s2.cards, 0);
  }

  /** A page on which the loop stops gives the same result on both sites. */
  lemma PageLoopFrameStop(acc: Accumulator, page: int, s1: Site, s2: Site)
    requires 1 <= page <= MAX_PAGES && Valid(acc) && AgreeOnFirstPages(s1, s2)
    requires var at := ParseCurrentPageWithRetry(acc, page, s1.cards, MAX_RETRIES);
             !(at.outcome == Found && NavigateToNextPage(page, s1.pagination(page)))
    ensures PageLoop(acc, page, s1) == PageLoop(acc, page, s2)
  {
    PageChoiceFrame(acc, page, s1, s2);
    PageLoopStep(acc, page, s1);
    PageLoopStep(acc, page, s2);
  }

  /** A page the loop moves past leaves both sites at the same accumulator
      on the next page. */
  lemma PageLoopFrameGo(acc: Accumulator, page: int, s1: Site, s2: Site)
    requires 1 <= page <= MAX_PAGES && Valid(acc) && AgreeOnFirstPages(s1, s2)
    requires var at := ParseCurrentPageWithRetry(acc, page, s1.cards, MAX_RETRIES);
             && at.outcome == Found && NavigateToNextPage(page, s1.pagination(page))
    ensures var at := ParseCurrentPageWithRetry(acc, page, s1.cards, MAX_RETRIES);
            && Valid(at.acc)
            && (PageLoop(at.acc, page + 1, s1) == PageLoop(at.acc, page + 1, s2)
                ==> PageLoop(acc, page, s1) == PageLoop(acc, page, s2))
  {
    PageChoiceFrame(acc, page, s1, s2);
    PageLoopStep(acc, page, s1);
    PageLoopStep(acc, page, s2);
  }

  /** One page of the frame argument: the two loops agree from `page` on
      as soon as they agree from `page + 1` on, starting from `next`. */
  lemma PageLoopFrameStep(acc: Accumulator, page: int, s1: Site, s2: Site) returns (next: Accumulator)
    requires 1 <= page <= MAX_PAGES && Valid(acc) && AgreeOnFirstPages(s1, s2)
    ensures Valid(next)
    ensures PageLoop(next, page + 1, s1) == PageLoop(next, page + 1, s2)
            ==> PageLoop(acc, page, s1) == PageLoop(acc, page, s2)
  {
    var at := ParseCurrentPageWithRetry(acc, page, s1.cards, MAX_RETRIES);
    if at.outcome == Found && NavigateToNextPage(page, s1.pagination(page)) {
      PageLoopFrameGo(acc, page, s1, s2);
      next := at.acc;
    } else {
      PageLoopFrameStop(acc, page, s1, s2);
      next := acc;
    }
  }

  /** Past the page limit both loops stop at once with what they were given. */
  lemma PageLoopFrameLimit(acc: Accumulator, page: int, s1: Site, s2: Site)
    requires page == MAX_PAGES + 1 && Valid(acc)
    ensures PageLoop(acc, page, s1) == PageLoop(acc, page, s2)
  {
  }

  /** Sites that agree on the first pages give the same page loop. */
  lemma {:induction false} PageLoopFrame(acc: Accumulator, page: int, s1: Site, s2: Site)
    requires 1 <= page <= MAX_PAGES + 1 && Valid(acc) && AgreeOnFirstPages(s1, s2)
    ensures PageLoop(acc, page, s1) == PageLoop(acc, page, s2)
    decreases MAX_PAGES + 1 - page, 1
  {
    if page <= MAX_PAGES {
      PageLoopFrameFrom(acc, page, s1, s2);
    } else {
      PageLoopFrameLimit(acc, page, s1, s2);
    }
  }

  /** The frame argument on a page within the limit: one page, then the
      rest of the loop. */
  lemma {:induction false} PageLoopFrameFrom(acc: Accumulator, page: int, s1: Site, s2: Site)
    requires 1 <= page <= MAX_PAGES && Valid(acc) && AgreeOnFirstPages(s1, s2)
    ensures PageLoop(acc, page, s1) == PageLoop(acc, page, s2)
    decreases MAX_PAGES + 1 - page, 0
  {
    var next := PageLoopFrameStep(acc, page, s1, s2);
    PageLoopFrame(next, page + 1, s1, s2);
  }

  /** A run parses no page beyond `MAX_PAGES` and makes no attempt beyond
      `MAX_RETRIES` on a page: what a site shows anywhere else cannot
      change the run. */
  lemma RunSeesOnlyFirstPages(before: Statics, s1: Site, s2: Site)
    requires AgreeOnFirstPages(s1, s2)
    ensures ParseAllProjects(before, s1) == ParseAllProjects(before, s2)
  {
    if s1.initSucceeds {
      PageLoopFrame(Accumulator([], {}), 1, s1, s2);
    }
  }
}

=== FILE: text.dfy ===
/** The parts of java.lang.String the bot relies on, over `seq<char>`:
    lower-casing, prefix and substring tests, `trim()` and the
    `replaceAll("\\s+", " ")` collapse. */
module Text {

  // ---------------------------------------------------------------- case

  /** Character lower-casing. Java consults the full Unicode case tables;
      this model maps the Latin capitals A-Z and the Cyrillic capitals
      U+0400..U+042F to their small letters and leaves every other
      character alone, which covers every keyword the bot compares. */
  function LowerChar(c: char): char {
    if 'A' <= c <= 'Z' then (c as int + 32) as char
    else if 'А' <= c <= 'Я' then (c as int + 32) as char
    else if 'Ѐ' <= c <= 'Џ' then (c as int + 80) as char
    else c
  }

  /** `String.toLowerCase()`, character by character. */
  function Lower(s: string): (r: string)
    ensures |r| == |s|
    ensures forall i :: 0 <= i < |s| ==> r[i] == LowerChar(s[i])
  {
    seq(|s|, i requires 0 <= i < |s| => LowerChar(s[i]))
  }

  /** Lower-casing a lower-cased character changes nothing: no case map
      lands in a range it maps from. */
  lemma LowerCharIdempotent(c: char)
    ensures LowerChar(LowerChar(c)) == LowerChar(c)
  {
  }

  /** Lower-casing a lower-cased text changes nothing. */
  lemma LowerIdempotent(s: string)
    ensures Lower(Lower(s)) == Lower(s)
  {
    forall i | 0 <= i < |s|
      ensures Lower(Lower(s))[i] == Lower(s)[i]
    {
      LowerCharIdempotent(s[i]);
    }
  }

  /** `String.equalsIgnoreCase`: same length, and equal after lower-casing
      position by position. */
  predicate EqualsIgnoreCase(s: string, t: string) {
    |s| == |t| && forall i :: 0 <= i < |s| ==> LowerChar(s[i]) == LowerChar(t[i])
  }

  // ------------------------------------------------- prefixes, substrings

  /** `s.startsWith(p)`. */
  predicate StartsWith(s: string, p: string) {
    |p| <= |s| && s[..|p|] == p
  }

  /** `sub` occurs in `s` starting at index `i`. */
  predicate OccursAt(s: string, sub: string, i: int) {
    0 <= i && i + |sub| <= |s| && s[i..i + |sub|] == sub
  }

  /** `s.contains(sub)`, as a left-to-right scan. */
  function Contains(s: string, sub: string): bool
    decreases |s|
  {
    if |sub| > |s| then false
    else if s[..|sub|] == sub then true
    else Contains(s[1..], sub)
  }

  /** The scan finds `sub` exactly when it occurs somewhere in `s`. */
  lemma {:induction false} ContainsIffOccurs(s: string, sub: string)
    ensures Contains(s, sub) <==> exists i :: OccursAt(s, sub, i)
    decreases |s|
  {
    if |sub| > |s| {
      forall i ensures !OccursAt(s, sub, i) { }
    } else if s[..|sub|] == sub {
      assert OccursAt(s, sub, 0);
    } else {
      ContainsIffOccurs(s[1..], sub);
      if Contains(s[1..], sub) {
        var j :| OccursAt(s[1..], sub, j);
        assert s[1..][j..j + |sub|] == s[j + 1..j + 1 + |sub|];
        assert OccursAt(s, sub, j + 1);
      } else {
        forall i | OccursAt(s, sub, i)
          ensures false
        {
          assert i != 0;
          assert s[1..][i - 1..i - 1 + |sub|] == s[i..i + |sub|];
          assert OccursAt(s[1..], sub, i - 1);
        }
      }
    }
  }

  // ---------------------------------------------------------------- trim

  /** The characters `String.trim()` strips: every code unit up to U+0020. */
  predicate IsTrimmable(c: char) {
    c <= ' '
  }

  /** The first position at or after `i` holding a character that
      `String.trim()` keeps, or `|s|` when there is none. */
  function TrimFirst(s: string, i: nat): (k: nat)
    requires i <= |s|
    ensures i <= k <= |s|
    ensures forall j :: i <= j < k ==> IsTrimmable(s[j])
    ensures k == |s| || !IsTrimmable(s[k])
    decreases |s| - i
  {
    if i < |s| && IsTrimmable(s[i]) then TrimFirst(s, i + 1) else i
  }

  /** Moves the end `e` of a slice back over trimmable characters, never
      below `lo`. */
  function TrimLast(s: string, lo: nat, e: nat): (k: nat)
    requires lo <= e <= |s|
    ensures lo <= k <= e
    ensures forall j :: k <= j < e ==> IsTrimmable(s[j])
    ensures k == lo || !IsTrimmable(s[k - 1])
    decreases e
  {
    if e > lo && IsTrimmable(s[e - 1]) then TrimLast(s, lo, e - 1) else e
  }

  /** Where the text `String.trim()` keeps starts in `s`. */
  function TrimOffset(s: string): nat {
    TrimFirst(s, 0)
  }

  /** `String.trim()`: `s` is some trimmable characters, then the result,
      then some trimmable characters; the result neither starts nor ends
      with a trimmable character. */
  function Trim(s: string): (r: string)
    ensures TrimOffset(s) + |r| <= |s| && r == s[TrimOffset(s)..TrimOffset(s) + |r|]
    ensures forall i :: 0 <= i < TrimOffset(s) ==> IsTrimmable(s[i])
    ensures forall i :: TrimOffset(s) + |r| <= i < |s| ==> IsTrimmable(s[i])
    ensures r == [] || (!IsTrimmable(r[0]) && !IsTrimmable(r[|r| - 1]))
  {
    var k := TrimFirst(s, 0);
    s[k..TrimLast(s, k, |s|)]
  }

  /** A string that is already trimmed is left alone. */
  lemma {:induction false} TrimIdentity(s: string)
    requires s == [] || (!IsTrimmable(s[0]) && !IsTrimmable(s[|s| - 1]))
    ensures Trim(s) == s
  {
  }

  // -------------------------------------------------- whitespace collapse

  /** The regular-expression class `\s` of java.util.regex (without the
      UNICODE_CHARACTER_CLASS flag): space, tab, line feed, vertical tab,
      form feed, carriage return. */
  predicate IsRegexSpace(c: char) {
    c == ' ' || '\t' <= c <= '\r'
  }

  /** Drops the run of `\s` characters at the front of `s`. */
  function DropSpaces(s: string): (r: string)
    ensures |r| <= |s| && r == s[|s| - |r|..]
    ensures forall i :: 0 <= i < |s| - |r| ==> IsRegexSpace(s[i])
    ensures r == [] || !IsRegexSpace(r[0])
  {
    if s != [] && IsRegexSpace(s[0]) then DropSpaces(s[1..]) else s
  }

  /** `s.replaceAll("\\s+", " ")`: every maximal run of `\s` characters
      becomes one space. */
  function CollapseSpaces(s: string): (r: string)
    ensures r != [] && IsRegexSpace(r[0]) ==> s != [] && IsRegexSpace(s[0])
    ensures forall i :: 0 <= i < |r| && IsRegexSpace(r[i]) ==> r[i] == ' '
    ensures NoAdjacentSpaces(r)
    decreases |s|
  {
    if s == [] then []
    else if IsRegexSpace(s[0]) then
      var rest := CollapseSpaces(DropSpaces(s[1..]));
      assert NoAdjacentSpaces([' '] + rest);
      [' '] + rest
    else
      var rest := CollapseSpaces(s[1..]);
      assert NoAdjacentSpaces([s[0]] + rest);
      [s[0]] + rest
  }

  /** No two neighbouring characters of `s` are both in `\s`. */
  predicate NoAdjacentSpaces(s: string) {
    forall i :: 0 <= i < |s| - 1 ==> !(IsRegexSpace(s[i]) && IsRegexSpace(s[i + 1]))
  }

  /** Any slice of a string with single plain spaces only has single plain
      spaces only. */
  lemma SliceKeepsSpacing(s: string, lo: nat, hi: nat)
    requires lo <= hi <= |s|
    requires NoAdjacentSpaces(s)
    requires forall i :: 0 <= i < |s| && IsRegexSpace(s[i]) ==> s[i] == ' '
    ensures NoAdjacentSpaces(s[lo..hi])
    ensures forall i :: 0 <= i < hi - lo && IsRegexSpace(s[lo..hi][i]) ==> s[lo..hi][i] == ' '
  {
    assert forall i :: 0 <= i < hi - lo ==> s[lo..hi][i] == s[lo + i];
  }

  /** A string with single plain spaces only is a fixed point of the
      collapse. */
  lemma {:induction false} CollapseIdentity(s: string)
    requires NoAdjacentSpaces(s)
    requires forall i :: 0 <= i < |s| && IsRegexSpace(s[i]) ==> s[i] == ' '
    ensures CollapseSpaces(s) == s
    decreases |s|
  {
    if s != [] {
      assert NoAdjacentSpaces(s[1..]);
      if IsRegexSpace(s[0]) {
        assert DropSpaces(s[1..]) == s[1..];
      }
      CollapseIdentity(s[1..]);
    }
  }

  /** What the collapse makes of position `i`, looking only at `s[i]` and
      its left neighbour: a character outside `\s` stays, the first `\s`
      character of a run becomes a space, the rest of the run goes. */
  function CollapsePiece(s: string, i: nat): string
    requires i < |s|
  {
    if !IsRegexSpace(s[i]) then [s[i]]
    else if i == 0 || !IsRegexSpace(s[i - 1]) then [' ']
    else []
  }

  /** The collapse of `s` from position `i` on, position by position: a
      definition independent of how the runs are found. */
  function CollapseFrom(s: string, i: nat): string
    requires i <= |s|
    decreases |s| - i
  {
    if i == |s| then [] else CollapsePiece(s, i) + CollapseFrom(s, i + 1)
  }

  /** Inside a run of `\s` characters nothing is produced. */
  lemma {:induction false} CollapseFromSkipsRun(s: string, i: nat, j: nat)
    requires 0 < i <= j <= |s|
    requires forall k :: i - 1 <= k < j ==> IsRegexSpace(s[k])
    ensures CollapseFrom(s, i) == CollapseFrom(s, j)
    decreases j - i
  {
    if i < j {
      assert CollapsePiece(s, i) == [];
      CollapseFromSkipsRun(s, i + 1, j);
    }
  }

  /** The collapse of a suffix starting at a run's beginning (or on a
      character outside `\s`) is the reference collapse from there. */
  lemma {:induction false} CollapseSuffix(s: string, i: nat)
    requires i <= |s|
    requires i == 0 || i == |s| || !IsRegexSpace(s[i - 1]) || !IsRegexSpace(s[i])
    ensures CollapseSpaces(s[i..]) == CollapseFrom(s, i)
    decreases |s| - i
  {
    if i < |s| {
      assert s[i..][1..] == s[i + 1..];
      if IsRegexSpace(s[i]) {
        var rest := DropSpaces(s[i + 1..]);
        var j := |s| - |rest|;
        assert rest == s[j..];
        forall k | i + 1 <= k < j
          ensures IsRegexSpace(s[k])
        {
          assert s[k] == s[i + 1..][k - (i + 1)];
        }
        CollapseFromSkipsRun(s, i + 1, j);
        CollapseSuffix(s, j);
      } else {
        CollapseSuffix(s, i + 1);
      }
    }
  }

  /** The collapse agrees with the position-by-position reference: every
      character outside `\s` is kept, in order, and every maximal run of
      `\s` characters becomes exactly one space. */
  lemma CollapseMatchesReference(s: string)
    ensures CollapseSpaces(s) == CollapseFrom(s, 0)
  {
    CollapseSuffix(s, 0);
  }

  // ------------------------------------------------------ visible content

  /** The characters of `s` above U+0020, in order: what neither the
      collapse nor the trim can touch. */
  function Visible(s: string): string
    decreases |s|
  {
    if s == [] then []
    else (if IsTrimmable(s[0]) then [] else [s[0]]) + Visible(s[1..])
  }

  lemma {:induction false} VisibleConcat(a: string, b: string)
    ensures Visible(a + b) == Visible(a) + Visible(b)
    decreases |a|
  {
    if a == [] {
      assert a + b == b;
    } else {
      assert (a + b)[0] == a[0];
      assert (a + b)[1..] == a[1..] + b;
      VisibleConcat(a[1..], b);
    }
  }

  /** A string made only of trimmable characters has no visible content. */
  lemma {:induction false} VisibleOfBlank(s: string)
    requires forall i :: 0 <= i < |s| ==> IsTrimmable(s[i])
    ensures Visible(s) == []
    decreases |s|
  {
    if s != [] {
      VisibleOfBlank(s[1..]);
    }
  }

  /** The visible content of one character followed by more text. */
  lemma VisibleCons(c: char, t: string)
    ensures Visible([c] + t) == (if IsTrimmable(c) then [] else [c]) + Visible(t)
  {
    assert ([c] + t)[1..] == t;
  }

  /** Collapsing whitespace keeps every visible character, in order. */
  lemma {:induction false} CollapseKeepsVisible(s: string)
    ensures Visible(CollapseSpaces(s)) == Visible(s)
    decreases |s|
  {
    if s != [] {
      if IsRegexSpace(s[0]) {
        var d := DropSpaces(s[1..]);
        var blank := s[1..|s| - |d|];
        assert s == [s[0]] + (blank + d);
        VisibleCons(s[0], blank + d);
        VisibleConcat(blank, d);
        VisibleOfBlank(blank);
        CollapseKeepsVisible(d);
        VisibleCons(' ', CollapseSpaces(d));
      } else {
        assert s == [s[0]] + s[1..];
        VisibleCons(s[0], s[1..]);
        CollapseKeepsVisible(s[1..]);
        VisibleCons(s[0], CollapseSpaces(s[1..]));
      }
    }
  }

  /** Trimming keeps every visible character, in order. */
  lemma TrimKeepsVisible(s: string)
    ensures Visible(Trim(s)) == Visible(s)
  {
    var r := Trim(s);
    var k := TrimOffset(s);
    var pre, post := s[..k], s[k + |r|..];
    assert s == pre + r + post;
    assert forall i :: 0 <= i < |pre| ==> IsTrimmable(pre[i]);
    forall i | 0 <= i < |post|
      ensures IsTrimmable(post[i])
    {
      assert post[i] == s[k + |r| + i];
    }
    VisibleConcat(pre + r, post);
    VisibleConcat(pre, r);
    VisibleOfBlank(pre);
    VisibleOfBlank(post);
  }
}

=== FILE: wrappers.dfy ===
/** Optional values: Java's nullable references and absent JSON fields. */
module Wrappers {

  datatype Option<+T> = None | Some(value: T) {

    /** The wrapped value, or `default` when absent. */
    function GetOr(default: T): T {
      match this
      case Some(v) => v
      case None => default
    }
  }
}
